=== FILE: README.md ===
# Fiber auth API core, modelled in Dafny

This project models the authentication core of a Go/Fiber web API. A request carries a
`jwt_token` cookie. `CoreMiddleware` verifies the token, which must be HMAC-signed (HS256,
HS384 or HS512 are all accepted), then resolves the session and the user it names. Each is resolved through a Redis cache-aside lookup that falls back to
Postgres. The middleware rotates the token when it is within 30 seconds of expiry and then
lets the request through, or answers 401/500.

Around that decision procedure the project models:
- the register, login and logout handlers, which write users and sessions in one
  all-or-nothing transaction;
- the salted SHA-512 and peppered bcrypt hashing front-end;
- JWT claims issuance;
- the Redis key scheme with its get/set/delete;
- the typed `GetEnv`;
- the routing decision of `Log`;
- the helpers of the schema-to-Go code generator.

Modelling choices:
- **Pure functions.** Every operation is a pure function from its inputs to its result.
- **Values in, values out.** State the source keeps in Redis, Postgres or the response comes in
  as a value and goes out as a new value: `Caching.Cache`, `Store.Db`, `Middleware.Outcome`,
  `Handlers.HandlerOutcome`.
- **Foreign code as parameters.** SHA-512, bcrypt, the JWT library, JSON marshalling and the
  OS random source are function-valued parameters.
- **Stated assumptions.** The only assumptions made about them are named predicates:
  - `Hashing.Lawful`: bcrypt accepts its own hashes.
  - `Tokens.Sound`: a signed token decodes to what was signed and verifies under the signing secret.
  - `Caching.Lawful`: JSON unmarshalling inverts marshalling.
  - `Hashing.NoCollision`: SHA-512 does not collide on one given pair of inputs. This is used
    only for the pepper finding, and only for the two inputs that finding compares.
- **Clock, ids and environment.** The clock is an input `now`, in seconds. So are the ids
  Postgres would generate and the process environment.
- **Outages.** A down or timed-out Redis or Postgres is a `up = false` flag.
- **Timestamps.** Times are Unix seconds. GORM fills `CreatedAt` on insert, but nothing sets
  `LastUpdatedAt`, so new users and sessions store Go's zero time there (`Models.GoZeroTime`).
- **Strings and bytes.** Go strings are `string` with one character per byte. `[]byte(s)` is
  `Bytes.GoBytes`.
- **Hex.** Hex follows section 8 of RFC 4648: encoding is lower-case, and decoding accepts
  either case.

Some properties tie the components together:
- `Lifecycle.RegisteredTokenAuthenticates` and `Lifecycle.LoggedInTokenAuthenticates`: the cookie
  a registration or a login sets authenticates the next request.
- `Lifecycle.RegisterThenLogin`: logging in with the credentials just registered succeeds, as
  the new account.
- `Middleware.LookupsCommute`: the two concurrent lookups touch disjoint cache keys, so running
  them one after the other in either order gives the same outcome.

Three places where the code's own text promises more than the code does:
- **Logout and the cache.** The logout reply says "Successfully logged out & revoked session"
  (`handlers/auth.go:288`), but the handler deletes only the Postgres row. The middleware
  serves a cached session without asking Postgres (`middleware/core.go:82-87`), so the token
  keeps working while the cache entry lives. This is the first finding below.
- **Session expiry.** The middleware never reads a session's `ExpiresAt`. The comment at
  `middleware/core.go:185-187` relies instead on a job that deletes expired sessions every
  minute. That job is not part of this model. `Middleware.ExpiredSessionAccepted` states the
  behaviour.
- **The digest.** `Hash512` refuses to run without a pepper (`lib/security/hashing.go:29`), but
  the bytes it hashes are the text and the salt alone (`lib/security/hashing.go:65`). This is
  the second finding.

## Model

| member | source | states |
|---|---|---|
| Environment.GetEnvString | fiber/src/lib/general/enviornment.go:13-23 | an unset or empty variable yields the default and any other value is returned unchanged, so a non-empty default guarantees a non-empty result |
| Environment.ParseInt32 | fiber/src/lib/general/enviornment.go:25-26 | `strconv.ParseInt(s, 10, 32)` accepts exactly an optional sign followed by one or more decimal digits whose value is within int32, and yields that value |
| Environment.GetEnvInt | fiber/src/lib/general/enviornment.go:13-33 | an unset variable, or one `ParseInt` rejects (malformed or out of int32 range), yields the default; otherwise the parsed value; the result is always the default or an int32 |
| Environment.ParseFormatInt | fiber/src/lib/general/enviornment.go:25-26 | parsing the decimal rendering of any integer gives that integer back |
| Environment.GetEnvIntRoundTrip | fiber/src/lib/general/enviornment.go:24-29 | any int32 stored in a variable is read back exactly, whatever the default |
| Environment.GetEnvIntOutOfRange | fiber/src/lib/general/enviornment.go:24-29 | a well-formed value outside the int32 range silently falls back to the default |
| Logging.NodeEnv | fiber/src/config/log.go:12 | the logger's environment is never empty: NODE_ENV when set, else "development" |
| Logging.Log | fiber/src/config/log.go:18-63 | an empty env returns "no ENV found"; level 0 in production does nothing; a row (message, level) is persisted iff the filters pass, saveLog is set and a database handle exists; the process exits iff level 3, fatal and development; a fatal level-3 log elsewhere returns an error carrying the message; everything else returns nil; past the filters level 0 goes to the debug sink, 1 to info, 2 to warn, 3 to fatal when fatal in development and to error otherwise, and levels above 3 to debug |
| Logging.NoEnvBranchUnreachable | fiber/src/config/log.go:12-22 | with env read through its non-empty default, a non-fatal message never returns "no ENV found", and the only error returned is the fatal one carrying the message |
| Logging.PersistenceIndependentOfLevel | fiber/src/config/log.go:29-37 | once a message passes the filters, whether it is persisted does not depend on its level |
| Bytes.GoBytes | fiber/src/lib/security/hashing.go:65 | `[]byte(text)` keeps the length and maps each single-byte character to its code |
| Bytes.GoBytesAppend | fiber/src/lib/security/hashing.go:97 | converting a concatenation is concatenating the conversions (`[]byte(text+pepper)`) |
| Hex.Encode | fiber/src/lib/security/hashing.go:69 | `hex.EncodeToString` produces two lower-case hex digits per byte |
| Hex.Decode | fiber/src/lib/security/hashing.go:51-55 | `hex.DecodeString` succeeds exactly on even-length strings of hex digits of either case, yielding half as many bytes |
| Hex.DecodeEncode | fiber/src/lib/security/hashing.go:47-51 | decoding an encoding gives the bytes back |
| Hex.EncodeDecode | fiber/src/lib/security/hashing.go:51-69 | an even-length lower-case hex string decodes and re-encodes to itself |
| Hashing.ConfigFrom | fiber/src/lib/security/hashing.go:18-19 | the pepper is HASH_PEPPER's value (so empty exactly when it is unset or empty); the cost is BCRYPT_COST parsed as an int32, and 16 when it is unset or does not parse |
| Hashing.SaltToUse | fiber/src/lib/security/hashing.go:33-63 | with no salt (nil or "") the freshly drawn 32 bytes are used, and a failed read is an error; a supplied salt must hex-decode (else "incorrectly formatted") to exactly 32 bytes (else "not 32 bytes") and is then used as decoded |
| Hashing.SaltedDigest | fiber/src/lib/security/hashing.go:36-71 | the hash is 128 lower-case hex digits decoding to SHA-512 of the input followed by the salt bytes; a salt is returned iff it was generated, as 64 lower-case hex digits decoding to the drawn bytes |
| Hashing.Hash512 | fiber/src/lib/security/hashing.go:21-72 | no pepper is an error; the salt errors of SaltToUse pass through; on success the hash decodes to SHA-512 of the text's bytes followed by the salt, and the salt is returned iff none was supplied, as 64 lower-case hex digits decoding to the drawn bytes |
| Hashing.CheckHash512 | fiber/src/lib/security/hashing.go:74-86 | fails exactly when recomputing with the given salt fails, and otherwise answers whether the recomputed hex equals the stored one |
| Hashing.Hash512CheckRoundTrip | fiber/src/lib/security/hashing.go:21-86 | a hash made with a generated salt checks out against that salt, whatever randomness the check draws |
| Hashing.Hash512IgnoresPepper | fiber/src/lib/security/hashing.go:29-68 | any two non-empty peppers give identical `Hash512` results: the pepper gates the call but never reaches the digest |
| Hashing.Hash512Peppered | fiber/src/lib/security/hashing.go:21-72 | corrected `Hash512`: the digest covers the text, then the pepper, then the salt; otherwise as `Hash512` (no pepper is an error, salt errors pass through, the generated salt is returned iff none was supplied, as 64 lower-case hex digits of the drawn bytes) |
| Hashing.CheckHash512Peppered | fiber/src/lib/security/hashing.go:74-86 | `CheckHash512` over the corrected digest |
| Hashing.Hash512PepperedCheckRoundTrip | fiber/src/lib/security/hashing.go:21-86 | the corrected hash still checks out against its generated salt |
| Hashing.PepperChangesInput | fiber/src/lib/security/hashing.go:29-68 | in the corrected digest, peppers that differ as bytes make the hashed bytes differ for the same text and salt |
| Hashing.PepperChangesDigest | fiber/src/lib/security/hashing.go:29-68 | servers whose peppers differ as bytes give the same text and salt different corrected hashes, unless SHA-512 collides on exactly those two inputs |
| Hashing.HashBcrypt | fiber/src/lib/security/hashing.go:88-103 | a zero cost is refused before an empty pepper; otherwise the result is bcrypt's hash of the text's bytes followed by the pepper's, and bcrypt's failure is the only other error |
| Hashing.CheckHashBcrypt | fiber/src/lib/security/hashing.go:105-118 | an empty pepper is an error; a match is true, a mismatch is false (not an error), any other comparison error is passed on |
| Hashing.BcryptRoundTrip | fiber/src/lib/security/hashing.go:88-118 | a password's bcrypt hash checks out against that password |
| Tokens.IssuedClaims | fiber/src/lib/security/jwt-generator.go:30-38 | the claims carry uid and sid, with iat = nbf = now and exp - iat = the duration |
| Tokens.GenerateJwtWithDuration | fiber/src/lib/security/jwt-generator.go:23-51 | an empty secret is the fatal error; otherwise it succeeds iff signing succeeds, and a sound library's token is non-empty, decodes to HS256 with the issued claims, and verifies under the secret |
| Tokens.GenerateJwt | fiber/src/lib/security/jwt-generator.go:19-21 | the issued token expires 300 seconds after `now` and is HS256 |
| Tokens.IssuedAlgIsHmac | fiber/src/lib/security/jwt-generator.go:41 | issued tokens advertise an HMAC algorithm, so the middleware's key function accepts them |
| Caching.TtlFrom | fiber/src/lib/caching/caching.go:15 | the entry TTL is CACHE_TTL when it parses as an int32, else 900 seconds |
| Caching.ExpiryFor | fiber/src/lib/caching/caching.go:35 | an entry expires exactly `ttl` seconds after the write when ttl > 0 and never otherwise |
| Caching.SessionKey | fiber/src/lib/caching/caching.go:34 | `session:<sid>` ends with the id after an eight-character prefix |
| Caching.UserKey | fiber/src/lib/caching/caching.go:70 | `user:<uid>` ends with the id after a five-character prefix |
| Caching.KeysDistinct | fiber/src/lib/caching/caching.go:34-70 | no session key equals any user key |
| Caching.KeysInjective | fiber/src/lib/caching/caching.go:34-70 | different ids give different keys within each scheme |
| Caching.Fetch | fiber/src/lib/caching/caching.go:39-56 | a down server is an error distinct from a miss; an absent or expired key is a miss; a live entry is decoded, and an undecodable payload is its own error |
| Caching.Put | fiber/src/lib/caching/caching.go:23-36 | an unmarshallable value or a down server is an error and leaves the cache as it was; success stores the payload with its expiry under the key and keeps every other entry |
| Caching.Drop | fiber/src/lib/caching/caching.go:95-110 | a down server is an error; otherwise exactly that key is removed |
| Caching.PutThenFetch | fiber/src/lib/caching/caching.go:23-56 | a successful set is read back by a get made before its TTL runs out |
| Caching.CacheSessionRoundTrip | fiber/src/lib/caching/caching.go:23-56 | `GetCachedSession` returns the session `CacheSession` stored, within the TTL |
| Caching.CacheUserRoundTrip | fiber/src/lib/caching/caching.go:59-92 | `GetCachedUser` returns the user `CacheUser` stored, within the TTL |
| Caching.DropSessionThenMiss | fiber/src/lib/caching/caching.go:104-110 | after `DropCachedSession` the session's get misses, and every other key reads as before |
| Caching.DropUserThenMiss | fiber/src/lib/caching/caching.go:95-101 | after `DropCachedUser` the user's get misses, and every other key reads as before |
| Caching.PutFrames | fiber/src/lib/caching/caching.go:23-72 | a set under one key leaves every read of another key unchanged |
| Store.FirstUser | fiber/src/middleware/core.go:133 | `First` finds nothing iff no row matches, and otherwise returns the earliest matching row |
| Store.UserByUsername | fiber/src/handlers/auth.go:65-74 | a found user has that username; on a reachable database "record not found" means no row has it |
| Store.UserById | fiber/src/middleware/core.go:133 | a found user has that id; on a reachable database "record not found" means no row has it |
| Store.SessionById | fiber/src/middleware/core.go:98 | a session is found iff the database is reachable and holds that id, and it is that row |
| Store.InsertUser | fiber/src/handlers/auth.go:99-101 | an insert succeeds iff the database is up and the id is new, and then appends exactly that row |
| Store.InsertSession | fiber/src/handlers/auth.go:109-111 | an insert succeeds iff the database is up and the id is new, and then adds exactly that row |
| Store.InsertUserKeepsUniqueIds | fiber/src/handlers/auth.go:99-101 | inserting a user keeps the primary-key constraint that no two rows share an id |
| Store.UserByIdFindsRow | fiber/src/middleware/core.go:133 | with unique ids, looking a stored row up by its id finds that row |
| Store.UserByUsernameAppended | fiber/src/handlers/auth.go:65-101 | a user inserted under a name no earlier row had is what the username lookup then finds |
| Store.UserByIdAppended | fiber/src/handlers/auth.go:99-101 | a user inserted under a new id is what the id lookup then finds |
| Store.DeleteSession | fiber/src/handlers/auth.go:267 | the delete succeeds iff the database is up, removes exactly that session and leaves users alone |
| Http.HttpsOn | fiber/src/middleware/core.go:22 | cookies are Secure iff NODE_ENV is exactly "production" |
| Http.TokenCookie | fiber/src/middleware/core.go:203-211 | the credential cookie is `jwt_token`, HttpOnly, SameSite=Strict, Path=/, Secure in production, with the given token and expiry |
| Http.ClearingCookie | fiber/src/middleware/core.go:171-179 | the clearing cookie is empty and dated five minutes in the past |
| Middleware.VerifyToken | fiber/src/middleware/core.go:38-72 | succeeds iff the token decodes, advertises HMAC, verifies under the secret, passes the library's validation, and carries claims of the expected type with an expiry; a non-HMAC algorithm is rejected as such |
| Middleware.IssuedTokenVerifies | fiber/src/middleware/core.go:38-72 | a token the generator issued (and the library validates) verifies, yielding exactly the issued claims |
| Middleware.Resolve | fiber/src/middleware/core.go:82-109 | a cache hit is returned without touching the store; any cache failure falls back to the store; a store hit is written back to the cache, and a failed write-back does not fail the lookup; a store miss leaves the cache alone |
| Middleware.SecondLookupHitsCache | fiber/src/middleware/core.go:82-109 | right after a store fallback the next lookup within the TTL is served from the cache with the same value |
| Middleware.LookupsCommute | fiber/src/middleware/core.go:81-144 | the session and user lookups give the same results, store reads and final cache in either order |
| Middleware.Decide | fiber/src/middleware/core.go:146-217 | a missing secret during rotation exits the process and a signing failure is a 500 naming the user id, both before the joins; then a missing session is a 401 with a clearing cookie, then a missing user a 401 without one; otherwise the request proceeds with the user and session, setting a fresh token cookie (28-day expiry) iff exp - now <= 30 |
| Middleware.Authenticate | fiber/src/middleware/core.go:24-218 | no cookie, or a token that fails verification, is a 401 that touches neither cache nor store; only a verified token can proceed, read the store or reach the 500/exit paths, and it is decided over the session lookup followed by the user lookup |
| Middleware.RotatedCookieOutlivesToken | fiber/src/middleware/core.go:153-211 | a rotated cookie holds a token expiring in 300 seconds but itself lives 28 days |
| Middleware.ExpiredSessionAccepted | fiber/src/middleware/core.go:184-188 | a session row already past its `ExpiresAt` is accepted |
| Middleware.SessionExpiryNotConsulted | fiber/src/middleware/core.go:168-199 | the session's expiry never changes the decision's kind or cookie |
| Middleware.SecurityHeaders | fiber/src/middleware/core.go:221-231 | the four security headers get their fixed values and every other header is kept |
| Handlers.IssueInTx | fiber/src/handlers/auth.go:113-118 | the step succeeds exactly when `GenerateJWT(user, session)` does, with its token; a missing secret is the process exit and any other signing failure rolls back |
| Handlers.RegisterTx | fiber/src/handlers/auth.go:92-127 | commits exactly when the database is up, the user id and session id are new and signing succeeds; then exactly the new user and session have been added and the token names both; a missing secret after both inserts is the process exit; otherwise it rolls back and nothing is written |
| Handlers.Register | fiber/src/handlers/auth.go:22-151 | the 400s come in order (body, username 3-50, password >= 8), then 409 for a taken username, 500 for a database or hashing failure; past those checks a committed transaction is 201, a rolled-back one the 500 "Account registration failure", a missing secret the process exit; nothing is written unless 201; on 201 exactly one user (fresh id, bcrypt hash of the password, unverified, created now, `LastUpdatedAt` at Go's zero time) and one 28-day session are added, and the cookie carries a token for both and expires with the session |
| Handlers.RegisterAccepts | fiber/src/handlers/auth.go:22-151 | a well-formed request for an unused username, with the database up, fresh ids free, and hashing and signing working, is answered 201 for that username |
| Handlers.LoginTx | fiber/src/handlers/auth.go:210-235 | commits exactly when the database is up, the session id is new and signing succeeds; then exactly one new session is added and the token names its user and id; a missing secret after the insert is the process exit |
| Handlers.Login | fiber/src/handlers/auth.go:155-258 | an unknown username and a wrong password give the identical 401; a matching password leaves the reply to the transaction: commit is 200, rollback the 500 "Login failed", a missing secret the process exit; nothing is written unless 200; on 200 the users are untouched and exactly one 28-day session for the matched user (`LastUpdatedAt` at Go's zero time) is added, with its token in the cookie |
| Handlers.LoginAccepts | fiber/src/handlers/auth.go:155-258 | a well-formed request whose password matches the stored hash, with the database up, the session id free and signing working, is answered 200 with that user's account |
| Handlers.Logout | fiber/src/handlers/auth.go:261-291 | a reachable database loses exactly that session row and the reply clears the cookie; otherwise a 500 with nothing changed |
| Handlers.LogoutAndEvict | fiber/src/handlers/auth.go:261-291 | corrected logout: as `Logout`, and on success the session's cache entry is gone while every other entry is kept; a failed logout leaves the cache as it was |
| Lifecycle.RegisteredTokenAuthenticates | fiber/src/handlers/auth.go:92-138 | the cookie a successful registration sets authenticates a request in the same second, resolving the new user and session without rotation |
| Lifecycle.LoggedInTokenAuthenticates | fiber/src/handlers/auth.go:206-245 | the cookie a successful login sets authenticates a request in the same second as the user who logged in and the new session, without rotation |
| Lifecycle.RegisterThenLogin | fiber/src/handlers/auth.go:22-258 | after a 201 registration, logging in with the same credentials is answered 200 with the account just created |
| Lifecycle.LoggedOutTokenStillAccepted | fiber/src/handlers/auth.go:261-291 | after a successful logout, a token whose session is still cached keeps authenticating |
| Lifecycle.EvictingLogoutRevokes | fiber/src/handlers/auth.go:261-291 | after the corrected logout the same token is refused as a missing session and its cookie is cleared |
| Introspect.Split | fiber/src/tools/db-introspect.go:107 | `strings.Split(s, "_")` gives at least one piece, no piece holds '_', and joining the pieces with '_' restores the input |
| Introspect.PascalCharsSplit | fiber/src/tools/db-introspect.go:106-114 | `toPascalCase` equals the character-level reading: underscores dropped, the first character of each word upper-cased, the rest lower-cased |
| Introspect.PascalCaseShape | fiber/src/tools/db-introspect.go:106-114 | the result has no underscores and is shorter than the input by exactly their number |
| Introspect.PascalCharsShape | fiber/src/tools/db-introspect.go:106-114 | the character-level reading contains no underscore and is shorter than its input by exactly the number of underscores in it |
| Introspect.PascalCaseExample | fiber/src/tools/db-introspect.go:106-114 | `user_id` becomes `UserId`, the field name of the generated models |
| Introspect.BaseGoType | fiber/src/tools/db-introspect.go:119-150 | the switch yields one of the table's Go types or the `interface{}` fallback |
| Introspect.MapPostgresToGoType | fiber/src/tools/db-introspect.go:116-157 | the type is a pointer iff the column is nullable and its Go type is not `string`, and is otherwise the switch's type |
| Introspect.GoTypeExamples | fiber/src/tools/db-introspect.go:116-157 | a nullable uuid stays `string`, a nullable integer becomes `*int`, and an unknown type falls back to `interface{}` |
| Introspect.Contains | fiber/src/tools/db-introspect.go:202-209 | `contains` is true iff some element equals the item |
| Introspect.GormOptions | fiber/src/tools/db-introspect.go:172-192 | `type:uuid` appears iff the column is uuid, at most once; the generated-default option iff uuid with a `gen_random_uuid()` default; `not null` iff not nullable; the options are empty iff neither uuid nor non-null; `type:uuid` comes first and `not null` last |
| Introspect.GenerateGormTags | fiber/src/tools/db-introspect.go:159-199 | `id` columns get the primary-key tag (with uuid generation for uuid); other columns get the joined options, or "" exactly when there are none |
| Introspect.GormTagPrimaryKey | fiber/src/tools/db-introspect.go:163-170 | a uuid `id` column is tagged as a generated uuid primary key |
| Introspect.GormOptionsForeignKey | fiber/src/tools/db-introspect.go:172-195 | a non-null uuid `user_id` gets exactly two options, `type:uuid` then `not null`, with no second `type:uuid` |
| Introspect.GormTagForeignKey | fiber/src/tools/db-introspect.go:172-195 | those two options are joined by `;` inside `gorm:"…"` |
| Introspect.FieldLine | fiber/src/tools/db-introspect.go:82-93 | a field line starts with a tab and ends with a newline |
| IntrospectExamples.FieldLineForeignKey | fiber/src/tools/db-introspect.go:82-93 | the `user_id` uuid not-null column gives the line `\tUserId\tstring\t` followed by its json and gorm tags and a newline, as at fiber/src/models/models.go:23 |
| Introspect.StructFoot | fiber/src/tools/db-introspect.go:95-101 | the struct text's closing part ends by returning the table's name |
| Introspect.StructText | fiber/src/tools/db-introspect.go:57-104 | the struct text opens with the Pascal-cased type name and closes with the `TableName` method returning the table name |
| Introspect.StructTextField | fiber/src/tools/db-introspect.go:79-95 | every column's field line appears in the struct, in column order, right after the first line and the lines of the columns before it |
| Introspect.UserTables | fiber/src/tools/db-introspect.go:28-31 | a table is generated iff it is listed and neither starts with `pg_` nor is `schema_migrations` |
| Introspect.ModelsFile | fiber/src/tools/db-introspect.go:12-55 | the written file starts with the package header and imports, and is exactly that header when there are no tables |
| Introspect.ModelsFileAppend | fiber/src/tools/db-introspect.go:20-40 | one more table adds nothing when it is a system table or its column query failed, and otherwise appends its struct and a blank line |

## Left out

- Concurrency. The two lookup goroutines and the concurrent bcrypt call are run sequentially.
  `Middleware.LookupsCommute` shows the lookup order is immaterial. In the handler, the hash
  result is only consulted after the username check, as in the source.
- Logging. The `config.Log` calls inside the middleware and handlers are not modelled. They
  change no response. `Logging.Log` models the logger on its own.
- Wall-clock time. The several `time.Now()` readings of one request are one `now` in whole
  seconds.
- The crypto, JSON and JWT libraries. SHA-512, bcrypt, `crypto/rand`, JSON and the JWT
  library's parsing and claims validation are abstract parameters. Whether the library
  rejects an expired token is the abstract `validates`.
- Timeouts. `DEFAULT_TIMEOUT` contexts are not modelled. A timed-out command is the same as an
  unavailable server.
- Generated ids. Ids Postgres generates are inputs.
- Row order. `Store.FirstUser` returns the first match in sequence order, while GORM's `First`
  orders by primary key. The two agree whenever at most one row matches. Registration keeps
  usernames unique, except under concurrent registrations.
- `GetReqSession`. The failure path of `general.GetReqSession` in `DeleteLogout` is not
  modelled. `Handlers.Logout` receives the session the middleware attached.
- Extra headers. The `Cache-Control`/`Pragma` headers the handlers add are not modelled.
- Reply bodies. The JSON reply bodies are the user record. The source omits the password hash
  from them.
- Character case. `strings.ToUpper`/`ToLower` are modelled for ASCII letters only.
- Generator I/O. The generator's SQL queries and file writing are not modelled.
  `Introspect.ModelsFile` takes the table list and per-table column results as inputs. A failed
  column query skips its table.
- Process wiring. `main.go`, `config/database.go`, `config/redis.go`, `routes/setup.go`,
  `handlers/user.go`, `middleware/pre-req.go` and `cmd/tools/main.go` are not part of this model.
- The JWT secret. The middleware reads `JWT_SECRET` once at start-up. `GenerateJWT` re-reads it
  on every call. Both are the same `secret`, because the environment does not change at run
  time.

## Findings

| source | as written | input that shows it | evidently intended | confidence | as-written member | corrected member |
|---|---|---|---|---|---|---|
| fiber/src/handlers/auth.go:261-291 | logout deletes the session row but not its `session:<id>` Redis entry, so the middleware keeps resolving the session from the cache | log out while `session:<id>` is cached and replay the same token within the cache TTL; the middleware answers `Next` with the deleted session | logout also drops the cache entry (`caching.DropCachedSession`), so the replay is refused as a missing session | high, not executed | Lifecycle.LoggedOutTokenStillAccepted | Handlers.LogoutAndEvict, proved by Lifecycle.EvictingLogoutRevokes |
| fiber/src/lib/security/hashing.go:29-68 | `Hash512` refuses to run without a pepper but hashes only the text and salt | two servers with peppers "a" and "b" produce identical `Hash512` results for the same text and salt | the pepper is appended to the text before hashing, as `HashBcrypt` does | medium, not executed | Hashing.Hash512IgnoresPepper | Hashing.Hash512Peppered, proved by Hashing.PepperChangesInput and Hashing.PepperChangesDigest |

=== FILE: caching.dfy ===
/**
 * The Redis cache-aside store of lib/caching/caching.go: the key scheme, set,
 * get and delete with a time-to-live. Redis is a key -> entry map plus an
 * availability flag (a down or timed-out server answers every command with
 * an error); JSON marshalling is a `Codec` whose round trip is `Lawful`.
 */
module Caching {
  import opened Wrappers
  import opened Models
  import Environment

  /** A stored payload and the instant (seconds) it expires, None for no expiry. */
  datatype Entry = Entry(payload: string, expiresAt: Option<int>)

  datatype Cache = Cache(up: bool, entries: map<string, Entry>)

  /** `redis.Nil` (Miss) is one error among several; callers tell them apart. */
  datatype CacheError = Miss | Unavailable | Undecodable | Unencodable

  datatype Codec<!T> = Codec(encode: T -> Option<string>, decode: string -> Option<T>)

  /** Decoding an encoded value gives it back (`json.Unmarshal` after `json.Marshal`). */
  ghost predicate Lawful<T(!new)>(c: Codec<T>) {
    forall v :: c.encode(v).Some? ==> c.decode(c.encode(v).value) == Some(v)
  }

  /** Used when CACHE_TTL is unset or not an int32: 15 minutes. */
  const DefaultTtl: int := 900

  /** The package-level `ttlMinutes`, in seconds. */
  function TtlFrom(vars: Environment.Vars): (ttl: int)
    ensures Environment.ParseInt32(Environment.Getenv(vars, "CACHE_TTL")).None? ==> ttl == DefaultTtl
    ensures Environment.ParseInt32(Environment.Getenv(vars, "CACHE_TTL")).Some? ==>
              ttl == Environment.ParseInt32(Environment.Getenv(vars, "CACHE_TTL")).value
    ensures ttl == DefaultTtl || Environment.MinInt32 <= ttl <= Environment.MaxInt32
  {
    Environment.GetEnvInt(vars, "CACHE_TTL", DefaultTtl)
  }

  /** go-redis sends EX only for a positive duration; zero or negative means no expiry. */
  function ExpiryFor(ttl: int, now: int): (e: Option<int>)
    ensures e.Some? <==> ttl > 0
    ensures e.Some? ==> e.value - now == ttl
  {
    if ttl > 0 then Some(now + ttl) else None
  }

  predicate Live(e: Entry, now: int) {
    e.expiresAt.None? || now < e.expiresAt.value
  }

  function SessionKey(sid: string): (k: string)
    ensures |k| == |sid| + 8 && k[8..] == sid && k[0] == 's'
  {
    "session:" + sid
  }

  function UserKey(uid: string): (k: string)
    ensures |k| == |uid| + 5 && k[5..] == uid && k[0] == 'u'
  {
    "user:" + uid
  }

  /** Session keys and user keys never collide, and each scheme is injective. */
  lemma KeysDistinct(sid: string, uid: string)
    ensures SessionKey(sid) != UserKey(uid)
  {
  }

  lemma KeysInjective(a: string, b: string)
    ensures SessionKey(a) == SessionKey(b) ==> a == b
    ensures UserKey(a) == UserKey(b) ==> a == b
  {
  }

  /** `GET key` followed by `json.Unmarshal`. */
  function Fetch<T>(cache: Cache, key: string, codec: Codec<T>, now: int): (r: Result<T, CacheError>)
    ensures !cache.up ==> r == Failure(Unavailable)
    ensures cache.up && (key !in cache.entries || !Live(cache.entries[key], now)) ==> r == Failure(Miss)
    ensures cache.up && key in cache.entries && Live(cache.entries[key], now) ==>
              match codec.decode(cache.entries[key].payload)
              case None => r == Failure(Undecodable)
              case Some(v) => r == Success(v)
  {
    if !cache.up then Failure(Unavailable)
    else if key !in cache.entries || !Live(cache.entries[key], now) then Failure(Miss)
    else match codec.decode(cache.entries[key].payload)
      case None => Failure(Undecodable)
      case Some(v) => Success(v)
  }

  /** The cache after a command, and the command's error if any. */
  datatype Write = Write(cache: Cache, error: Option<CacheError>)

  /** `json.Marshal` then `SET key value EX ttl`. */
  function Put<T>(cache: Cache, key: string, v: T, codec: Codec<T>, ttl: int, now: int): (w: Write)
    ensures codec.encode(v).None? ==> w == Write(cache, Some(Unencodable))
    ensures codec.encode(v).Some? && !cache.up ==> w == Write(cache, Some(Unavailable))
    ensures w.error.None? <==> codec.encode(v).Some? && cache.up
    ensures w.error.None? ==> w.cache.up && w.cache.entries.Keys == cache.entries.Keys + {key}
    ensures w.error.None? ==> w.cache.entries[key] == Entry(codec.encode(v).value, ExpiryFor(ttl, now))
    ensures forall k :: k != key && k in cache.entries ==> k in w.cache.entries && w.cache.entries[k] == cache.entries[k]
    ensures w.cache.up == cache.up
  {
    match codec.encode(v)
    case None => Write(cache, Some(Unencodable))
    case Some(payload) =>
      if !cache.up then Write(cache, Some(Unavailable))
      else Write(cache.(entries := cache.entries[key := Entry(payload, ExpiryFor(ttl, now))]), None)
  }

  /** `DEL key`. */
  function Drop(cache: Cache, key: string): (w: Write)
    ensures !cache.up ==> w == Write(cache, Some(Unavailable))
    ensures cache.up ==> w.error.None? && w.cache.up && w.cache.entries == cache.entries - {key}
  {
    if !cache.up then Write(cache, Some(Unavailable))
    else Write(cache.(entries := cache.entries - {key}), None)
  }

  function CacheSession(cache: Cache, sid: string, s: Session, codec: Codec<Session>, ttl: int, now: int): Write {
    Put(cache, SessionKey(sid), s, codec, ttl, now)
  }

  function GetCachedSession(cache: Cache, sid: string, codec: Codec<Session>, now: int): Result<Session, CacheError> {
    Fetch(cache, SessionKey(sid), codec, now)
  }

  function CacheUser(cache: Cache, uid: string, u: User, codec: Codec<User>, ttl: int, now: int): Write {
    Put(cache, UserKey(uid), u, codec, ttl, now)
  }

  function GetCachedUser(cache: Cache, uid: string, codec: Codec<User>, now: int): Result<User, CacheError> {
    Fetch(cache, UserKey(uid), codec, now)
  }

  function DropCachedSession(cache: Cache, sid: string): Write {
    Drop(cache, SessionKey(sid))
  }

  function DropCachedUser(cache: Cache, uid: string): Write {
    Drop(cache, UserKey(uid))
  }

  /** A successful put is read back by a get made before the entry's TTL runs out. */
  lemma PutThenFetch<T(!new)>(cache: Cache, key: string, v: T, codec: Codec<T>, ttl: int, now: int, later: int)
    requires Lawful(codec)
    requires Put(cache, key, v, codec, ttl, now).error.None?
    requires ttl <= 0 || later < now + ttl
    ensures Fetch(Put(cache, key, v, codec, ttl, now).cache, key, codec, later) == Success(v)
  {
  }

  lemma CacheSessionRoundTrip(cache: Cache, sid: string, s: Session, codec: Codec<Session>, ttl: int, now: int, later: int)
    requires Lawful(codec)
    requires CacheSession(cache, sid, s, codec, ttl, now).error.None?
    requires ttl <= 0 || later < now + ttl
    ensures GetCachedSession(CacheSession(cache, sid, s, codec, ttl, now).cache, sid, codec, later) == Success(s)
  {
  }

  lemma CacheUserRoundTrip(cache: Cache, uid: string, u: User, codec: Codec<User>, ttl: int, now: int, later: int)
    requires Lawful(codec)
    requires CacheUser(cache, uid, u, codec, ttl, now).error.None?
    requires ttl <= 0 || later < now + ttl
    ensures GetCachedUser(CacheUser(cache, uid, u, codec, ttl, now).cache, uid, codec, later) == Success(u)
  {
  }

  /** After a successful drop the next get of that id misses, and every other key reads as before. */
  lemma DropSessionThenMiss(cache: Cache, sid: string, codec: Codec<Session>, now: int)
    requires cache.up
    ensures GetCachedSession(DropCachedSession(cache, sid).cache, sid, codec, now) == Failure(Miss)
    ensures forall k :: k != SessionKey(sid) ==>
              Fetch(DropCachedSession(cache, sid).cache, k, codec, now) == Fetch(cache, k, codec, now)
  {
  }

  lemma DropUserThenMiss(cache: Cache, uid: string, codec: Codec<User>, now: int)
    requires cache.up
    ensures GetCachedUser(DropCachedUser(cache, uid).cache, uid, codec, now) == Failure(Miss)
    ensures forall k :: k != UserKey(uid) ==>
              Fetch(DropCachedUser(cache, uid).cache, k, codec, now) == Fetch(cache, k, codec, now)
  {
  }

  /** A put under one key leaves every read of another key as it was. */
  lemma PutFrames<T, U>(cache: Cache, key: string, v: T, codec: Codec<T>, ttl: int, now: int,
                        other: string, codec2: Codec<U>, t: int)
    requires other != key
    ensures Fetch(Put(cache, key, v, codec, ttl, now).cache, other, codec2, t) == Fetch(cache, other, codec2, t)
  {
  }
}

=== FILE: environment.dfy ===
/**
 * Typed environment lookup (`GetEnv` in lib/general/enviornment.go).
 * The process environment is a map from variable name to value; an unset
 * variable reads as the empty string, as `os.Getenv` does.
 */
module Environment {
  import opened Wrappers

  type Vars = map<string, string>

  const MinInt32: int := -0x8000_0000
  const MaxInt32: int := 0x7fff_ffff

  /** `os.Getenv`: the value, or "" when the variable is unset. */
  function Getenv(vars: Vars, key: string): string {
    if key in vars then vars[key] else ""
  }

  predicate IsDigit(c: char) {
    '0' <= c <= '9'
  }

  predicate AllDigits(s: string) {
    forall i :: 0 <= i < |s| ==> IsDigit(s[i])
  }

  function DigitValue(c: char): nat
    requires IsDigit(c)
  {
    c as int - '0' as int
  }

  function DigitChar(d: nat): (c: char)
    requires d < 10
    ensures IsDigit(c) && DigitValue(c) == d
  {
    "0123456789"[d]
  }

  /** The value of a run of decimal digits, most significant first. */
  function DigitsValue(s: string): nat
    requires AllDigits(s)
    decreases |s|
  {
    if |s| == 0 then 0 else DigitsValue(s[..|s| - 1]) * 10 + DigitValue(s[|s| - 1])
  }

  /** What base-10 `strconv.ParseInt` accepts: an optional sign, then one or more digits. */
  predicate IsDecimal(s: string) {
    if |s| > 0 && (s[0] == '+' || s[0] == '-') then |s| > 1 && AllDigits(s[1..])
    else |s| > 0 && AllDigits(s)
  }

  /** The exact (unbounded) value of a decimal string, before any range check. */
  function ParseDecimal(s: string): (r: Option<int>)
    ensures r.Some? <==> IsDecimal(s)
    ensures r.Some? && |s| > 0 && s[0] == '-' ==> r.value <= 0
    ensures r.Some? && |s| > 0 && s[0] != '-' ==> r.value >= 0
  {
    if |s| > 0 && (s[0] == '+' || s[0] == '-') then
      if |s| > 1 && AllDigits(s[1..]) then
        var magnitude: int := DigitsValue(s[1..]);
        Some(if s[0] == '-' then -magnitude else magnitude)
      else None
    else if |s| > 0 && AllDigits(s) then Some(DigitsValue(s))
    else None
  }

  /** `strconv.ParseInt(s, 10, 32)` with its error folded into None. */
  function ParseInt32(s: string): (r: Option<int>)
    ensures r.Some? ==> MinInt32 <= r.value <= MaxInt32
    ensures r.Some? <==> IsDecimal(s) && MinInt32 <= ParseDecimal(s).value <= MaxInt32
    ensures r.Some? ==> Some(r.value) == ParseDecimal(s)
  {
    match ParseDecimal(s)
    case Some(n) => if MinInt32 <= n <= MaxInt32 then Some(n) else None
    case None => None
  }

  /** `GetEnv(key, default)` with a string default. */
  function GetEnvString(vars: Vars, key: string, default: string): (r: string)
    ensures Getenv(vars, key) == "" ==> r == default
    ensures Getenv(vars, key) != "" ==> r == Getenv(vars, key)
    ensures default != "" ==> r != ""
  {
    var value := Getenv(vars, key);
    if value == "" then default else value
  }

  /** `GetEnv(key, default)` with an int default. */
  function GetEnvInt(vars: Vars, key: string, default: int): (r: int)
    ensures Getenv(vars, key) == "" ==> r == default
    ensures ParseInt32(Getenv(vars, key)).Some? ==> r == ParseInt32(Getenv(vars, key)).value
    ensures ParseInt32(Getenv(vars, key)).None? ==> r == default
    ensures r == default || MinInt32 <= r <= MaxInt32
  {
    var value := Getenv(vars, key);
    if value == "" then default
    else match ParseInt32(value)
      case Some(n) => n
      case None => default
  }

  /** Decimal rendering of a natural number, the inverse of DigitsValue. */
  function FormatNat(n: nat): (s: string)
    ensures |s| > 0 && AllDigits(s)
  {
    if n < 10 then [DigitChar(n)] else FormatNat(n / 10) + [DigitChar(n % 10)]
  }

  /** Decimal rendering of an integer (`strconv.Itoa`). */
  function FormatInt(n: int): (s: string)
    ensures IsDecimal(s)
  {
    if n < 0 then "-" + FormatNat(-n) else FormatNat(n)
  }

  lemma {:induction false} DigitsValueFormatNat(n: nat)
    ensures DigitsValue(FormatNat(n)) == n
  {
    if n >= 10 {
      var prefix := FormatNat(n / 10);
      var s := prefix + [DigitChar(n % 10)];
      assert s[..|s| - 1] == prefix;
      DigitsValueFormatNat(n / 10);
    }
  }

  /** Parsing inverts rendering for every integer. */
  lemma ParseFormatInt(n: int)
    ensures ParseDecimal(FormatInt(n)) == Some(n)
  {
    var s := FormatInt(n);
    if n < 0 {
      var d := FormatNat(-n);
      assert s == "-" + d;
      assert s[1..] == d;
      DigitsValueFormatNat(-n);
      assert ParseDecimal(s) == Some(-(DigitsValue(d) as int));
    } else {
      var d := FormatNat(n);
      assert s == d && IsDigit(d[0]);
      DigitsValueFormatNat(n);
      assert ParseDecimal(s) == Some(DigitsValue(d));
    }
  }

  /** Any value in int32 range that is set in the environment is read back exactly. */
  lemma GetEnvIntRoundTrip(vars: Vars, key: string, n: int, default: int)
    requires MinInt32 <= n <= MaxInt32
    ensures GetEnvInt(vars[key := FormatInt(n)], key, default) == n
  {
    ParseFormatInt(n);
  }

  /** A value outside int32 range falls back to the default, even though it is well formed. */
  lemma GetEnvIntOutOfRange(vars: Vars, key: string, n: int, default: int)
    requires n < MinInt32 || MaxInt32 < n
    ensures GetEnvInt(vars[key := FormatInt(n)], key, default) == default
  {
    ParseFormatInt(n);
  }
}

=== FILE: handlers.dfy ===
/**
 * The register, login and logout handlers of handlers/auth.go: input
 * validation, then an all-or-nothing transaction over the `users` and
 * `sessions` tables. Ids the database would generate (`gen_random_uuid()`)
 * are inputs, as is the clock.
 */
module Handlers {
  import opened Wrappers
  import opened Models
  import Constants
  import Hashing
  import Tokens
  import Store
  import Http
  import Caching

  /** Configuration and foreign libraries the handlers use. */
  datatype Services = Services(
    hashing: Hashing.Config,
    bcrypt: Hashing.Bcrypt,
    lib: Tokens.JwtLibrary,
    secret: string,
    httpsOn: bool)

  /** A parsed request body; None stands for a body that fails to parse. */
  datatype Credentials = Credentials(username: string, password: string)

  datatype Body = ErrorBody(error: string) | AccountBody(user: User) | MessageBody(message: string)

  /** The HTTP reply, or the process terminating (`log.Fatal` on a missing JWT secret). */
  datatype Reply = Reply(status: int, body: Body, cookie: Option<Http.Cookie>) | ProcessExit

  datatype HandlerOutcome = HandlerOutcome(reply: Reply, db: Store.Db)

  /** The primary keys the database would generate for the new rows. */
  datatype FreshIds = FreshIds(userId: string, sessionId: string)

  predicate UsernameLengthOk(name: string) {
    3 <= |name| <= 50
  }

  predicate PasswordLengthOk(password: string) {
    |password| >= 8
  }

  function ErrorReply(status: int, message: string): Reply {
    Reply(status, ErrorBody(message), None)
  }

  // the error messages of the replies
  const InvalidBodyMessage: string := "Invalid request body"
  const RegisterUsernameMessage: string := "Username must be between 3 and 50 characters"
  const RegisterPasswordMessage: string := "Password must be at least 8 characters"
  const UsernameTakenMessage: string := "Username already taken"
  const DatabaseErrorMessage: string := "Database error"
  const HashingFailureMessage: string := "Hashing process failure"
  const RegistrationFailureMessage: string := "Account registration failure"
  const LoginUsernameMessage: string := "A standard username is between 3 and 50 characters"
  const LoginPasswordMessage: string := "A standard password is at least 8 characters"
  const InvalidCredentialsMessage: string := "Invalid username or password"
  const AuthenticationFailedMessage: string := "Authentication failed"
  const LoginFailedMessage: string := "Login failed"

  /** The part of a transaction after the inserts: issuing the token. */
  datatype TxFailure = Aborted | Exited

  function IssueInTx(svc: Services, uid: string, sid: string, now: int): (r: Result<string, TxFailure>)
    ensures r.Success? <==> Tokens.GenerateJwt(svc.lib, svc.secret, uid, sid, now).Success?
    ensures r.Success? ==> Tokens.GenerateJwt(svc.lib, svc.secret, uid, sid, now) == Success(r.value)
    ensures r == Failure(Exited) <==> svc.secret == ""
  {
    match Tokens.GenerateJwt(svc.lib, svc.secret, uid, sid, now)
    case Success(token) => Success(token)
    case Failure(e) => if e.SecretMissing? then Failure(Exited) else Failure(Aborted)
  }

  /**
   * The row `Create(&user)` stores for a new account: not verified, created
   * now; `LastUpdatedAt` is never set, so it keeps Go's zero time.
   */
  function NewUser(id: string, username: string, hash: string, now: int): User {
    User(id, username, hash, false, now, GoZeroTime)
  }

  /** The row `Create(&session)` stores: 28 days of life, created now, `LastUpdatedAt` unset. */
  function NewSession(id: string, userId: string, now: int): Session {
    Session(id, now + Constants.SessionDuration, userId, now, GoZeroTime)
  }

  /**
   * How a transaction's outcome decides the reply: `status` when it commits,
   * the 500 `failure` message when it rolls back, the process exit when the
   * JWT secret is missing.
   */
  predicate RepliesPerTx<T>(tx: Result<T, TxFailure>, reply: Reply, status: int, failure: string) {
    && (tx.Success? ==> reply.Reply? && reply.status == status)
    && (tx == Failure(Aborted) ==> reply == ErrorReply(Http.StatusInternalServerError, failure))
    && (tx == Failure(Exited) ==> reply.ProcessExit?)
  }

  /** Both inserts of the registration transaction are accepted: the database is up and both keys are free. */
  predicate RegisterInsertable(db: Store.Db, user: User, session: Session) {
    && db.up
    && (forall v :: v in db.users ==> v.id != user.id)
    && session.id !in db.sessions
  }

  /** Insert the user, insert the session, issue the token; any failure rolls everything back. */
  function RegisterTx(svc: Services, db: Store.Db, user: User, session: Session, now: int): (r: Result<(Store.Db, string), TxFailure>)
    // the transaction commits exactly when both inserts and the signing succeed
    ensures r.Success? <==>
              RegisterInsertable(db, user, session) && Tokens.GenerateJwt(svc.lib, svc.secret, user.id, session.id, now).Success?
    ensures r == Failure(Exited) <==> RegisterInsertable(db, user, session) && svc.secret == ""
    ensures r.Success? ==>
              && r.value.0.up
              && r.value.0.users == db.users + [user]
              && r.value.0.sessions == db.sessions[session.id := session]
              && Tokens.GenerateJwt(svc.lib, svc.secret, user.id, session.id, now) == Success(r.value.1)
  {
    match Store.InsertUser(db, user)
    case Failure(_) => Failure(Aborted)
    case Success(db1) =>
      match Store.InsertSession(db1, session)
      case Failure(_) => Failure(Aborted)
      case Success(db2) =>
        match IssueInTx(svc, user.id, session.id, now)
        case Failure(f) => Failure(f)
        case Success(token) => Success((db2, token))
  }

  /** `PostRegister`. */
  function Register(svc: Services, db: Store.Db, body: Option<Credentials>, now: int, ids: FreshIds): (o: HandlerOutcome)
    // every outcome other than 201 leaves the store as it was
    ensures !(o.reply.Reply? && o.reply.status == Http.StatusCreated) ==> o.db == db
    ensures body.None? ==> o.reply == ErrorReply(Http.StatusBadRequest, InvalidBodyMessage)
    // the username length is checked before the password length
    ensures body.Some? && !UsernameLengthOk(body.value.username) ==>
              o.reply == ErrorReply(Http.StatusBadRequest, RegisterUsernameMessage)
    ensures body.Some? && UsernameLengthOk(body.value.username) && !PasswordLengthOk(body.value.password) ==>
              o.reply == ErrorReply(Http.StatusBadRequest, RegisterPasswordMessage)
    ensures body.Some? && UsernameLengthOk(body.value.username) && PasswordLengthOk(body.value.password) ==>
              match Store.UserByUsername(db, body.value.username)
              case Success(_) => o.reply == ErrorReply(Http.StatusConflict, UsernameTakenMessage)
              case Failure(e) =>
                (e != Store.RecordNotFound ==> o.reply == ErrorReply(Http.StatusInternalServerError, DatabaseErrorMessage))
                && (e == Store.RecordNotFound && Hashing.HashBcrypt(svc.hashing, svc.bcrypt, body.value.password).Failure? ==>
                      o.reply == ErrorReply(Http.StatusInternalServerError, HashingFailureMessage))
                // past the checks, the transaction's outcome decides the reply
                && (e == Store.RecordNotFound && Hashing.HashBcrypt(svc.hashing, svc.bcrypt, body.value.password).Success? ==>
                      var user := NewUser(ids.userId, body.value.username, Hashing.HashBcrypt(svc.hashing, svc.bcrypt, body.value.password).value, now);
                      RepliesPerTx(RegisterTx(svc, db, user, NewSession(ids.sessionId, ids.userId, now), now), o.reply,
                                   Http.StatusCreated, RegistrationFailureMessage))
    ensures o.reply.ProcessExit? ==> svc.secret == ""
    // success: exactly one new user and one new session, and a cookie for a token naming both
    ensures o.reply.Reply? && o.reply.status == Http.StatusCreated ==>
              && body.Some?
              && o.reply.body.AccountBody?
              && var user := o.reply.body.user;
              && Hashing.HashBcrypt(svc.hashing, svc.bcrypt, body.value.password).Success?
              && user == NewUser(ids.userId, body.value.username, Hashing.HashBcrypt(svc.hashing, svc.bcrypt, body.value.password).value, now)
              && Store.UserByUsername(db, body.value.username).Failure?
              && db.up && o.db.up
              && o.db.users == db.users + [user]
              && (forall v :: v in db.users ==> v.id != user.id)
              && ids.sessionId !in db.sessions
              && o.db.sessions == db.sessions[ids.sessionId := NewSession(ids.sessionId, user.id, now)]
              && o.reply.cookie.Some?
              && o.reply.cookie.value.expires == o.db.sessions[ids.sessionId].expiresAt
              && Http.WellFormed(o.reply.cookie.value, svc.httpsOn)
              && Tokens.GenerateJwt(svc.lib, svc.secret, user.id, ids.sessionId, now) == Success(o.reply.cookie.value.value)
  {
    if body.None? then HandlerOutcome(ErrorReply(Http.StatusBadRequest, InvalidBodyMessage), db)
    else
      var data := body.value;
      if !UsernameLengthOk(data.username) then
        HandlerOutcome(ErrorReply(Http.StatusBadRequest, RegisterUsernameMessage), db)
      else if !PasswordLengthOk(data.password) then
        HandlerOutcome(ErrorReply(Http.StatusBadRequest, RegisterPasswordMessage), db)
      else
        // hashing runs concurrently with the lookup; its result is awaited after it
        var hash := Hashing.HashBcrypt(svc.hashing, svc.bcrypt, data.password);
        match Store.UserByUsername(db, data.username)
        case Success(_) => HandlerOutcome(ErrorReply(Http.StatusConflict, UsernameTakenMessage), db)
        case Failure(e) =>
          if e != Store.RecordNotFound then HandlerOutcome(ErrorReply(Http.StatusInternalServerError, DatabaseErrorMessage), db)
          else if hash.Failure? then HandlerOutcome(ErrorReply(Http.StatusInternalServerError, HashingFailureMessage), db)
          else
            var expires := now + Constants.SessionDuration;
            var user := NewUser(ids.userId, data.username, hash.value, now);
            var session := NewSession(ids.sessionId, user.id, now);
            match RegisterTx(svc, db, user, session, now)
            case Failure(f) =>
              if f.Exited? then HandlerOutcome(ProcessExit, db)
              else HandlerOutcome(ErrorReply(Http.StatusInternalServerError, RegistrationFailureMessage), db)
            case Success((db2, token)) =>
              HandlerOutcome(Reply(Http.StatusCreated, AccountBody(user), Some(Http.TokenCookie(token, expires, svc.httpsOn))), db2)
  }

  /**
   * The registration promise: a well-formed request for an unused username,
   * with the database up, the generated keys free, and hashing and signing
   * working, is answered 201.
   */
  lemma RegisterAccepts(svc: Services, db: Store.Db, body: Option<Credentials>, now: int, ids: FreshIds)
    requires body.Some? && UsernameLengthOk(body.value.username) && PasswordLengthOk(body.value.password)
    requires db.up && (forall u :: u in db.users ==> u.username != body.value.username && u.id != ids.userId)
    requires ids.sessionId !in db.sessions
    requires Hashing.HashBcrypt(svc.hashing, svc.bcrypt, body.value.password).Success?
    requires Tokens.GenerateJwt(svc.lib, svc.secret, ids.userId, ids.sessionId, now).Success?
    ensures var o := Register(svc, db, body, now, ids);
            o.reply.Reply? && o.reply.status == Http.StatusCreated && o.reply.body.user.username == body.value.username
  {
  }

  /** Insert the session, issue the token; any failure rolls back. */
  function LoginTx(svc: Services, db: Store.Db, session: Session, now: int): (r: Result<(Store.Db, string), TxFailure>)
    // the transaction commits exactly when the insert and the signing succeed
    ensures r.Success? <==>
              && db.up && session.id !in db.sessions
              && Tokens.GenerateJwt(svc.lib, svc.secret, session.userId, session.id, now).Success?
    ensures r == Failure(Exited) <==> db.up && session.id !in db.sessions && svc.secret == ""
    ensures r.Success? ==>
              && r.value.0.up
              && r.value.0.users == db.users
              && r.value.0.sessions == db.sessions[session.id := session]
              && Tokens.GenerateJwt(svc.lib, svc.secret, session.userId, session.id, now) == Success(r.value.1)
  {
    match Store.InsertSession(db, session)
    case Failure(_) => Failure(Aborted)
    case Success(db1) =>
      match IssueInTx(svc, session.userId, session.id, now)
      case Failure(f) => Failure(f)
      case Success(token) => Success((db1, token))
  }

  /** `PostLogin`. */
  function Login(svc: Services, db: Store.Db, body: Option<Credentials>, now: int, freshSessionId: string): (o: HandlerOutcome)
    ensures !(o.reply.Reply? && o.reply.status == Http.StatusOk) ==> o.db == db
    ensures body.None? ==> o.reply == ErrorReply(Http.StatusBadRequest, InvalidBodyMessage)
    ensures body.Some? && !UsernameLengthOk(body.value.username) ==>
              o.reply == ErrorReply(Http.StatusBadRequest, LoginUsernameMessage)
    ensures body.Some? && UsernameLengthOk(body.value.username) && !PasswordLengthOk(body.value.password) ==>
              o.reply == ErrorReply(Http.StatusBadRequest, LoginPasswordMessage)
    // an unknown username and a wrong password are indistinguishable
    ensures body.Some? && UsernameLengthOk(body.value.username) && PasswordLengthOk(body.value.password) ==>
              match Store.UserByUsername(db, body.value.username)
              case Failure(e) =>
                o.reply == (if e == Store.RecordNotFound then ErrorReply(Http.StatusUnauthorized, InvalidCredentialsMessage)
                            else ErrorReply(Http.StatusInternalServerError, DatabaseErrorMessage))
              case Success(user) =>
                match Hashing.CheckHashBcrypt(svc.hashing, svc.bcrypt, body.value.password, user.password)
                case Failure(_) => o.reply == ErrorReply(Http.StatusInternalServerError, AuthenticationFailedMessage)
                case Success(valid) =>
                  && (!valid ==> o.reply == ErrorReply(Http.StatusUnauthorized, InvalidCredentialsMessage))
                  // a matching password: the transaction's outcome decides the reply
                  && (valid ==>
                        RepliesPerTx(LoginTx(svc, db, NewSession(freshSessionId, user.id, now), now), o.reply,
                                     Http.StatusOk, LoginFailedMessage))
    ensures o.reply.ProcessExit? ==> svc.secret == ""
    // success: users unchanged, exactly one new session owned by the user whose password matched
    ensures o.reply.Reply? && o.reply.status == Http.StatusOk ==>
              && body.Some?
              && Store.UserByUsername(db, body.value.username).Success?
              && var user := Store.UserByUsername(db, body.value.username).value;
              && Hashing.CheckHashBcrypt(svc.hashing, svc.bcrypt, body.value.password, user.password) == Success(true)
              && o.reply.body == AccountBody(user)
              && db.up && o.db.up
              && o.db.users == db.users
              && freshSessionId !in db.sessions
              && o.db.sessions == db.sessions[freshSessionId := NewSession(freshSessionId, user.id, now)]
              && o.reply.cookie.Some?
              && o.reply.cookie.value.expires == now + Constants.SessionDuration
              && Http.WellFormed(o.reply.cookie.value, svc.httpsOn)
              && Tokens.GenerateJwt(svc.lib, svc.secret, user.id, freshSessionId, now) == Success(o.reply.cookie.value.value)
  {
    if body.None? then HandlerOutcome(ErrorReply(Http.StatusBadRequest, InvalidBodyMessage), db)
    else
      var data := body.value;
      if !UsernameLengthOk(data.username) then
        HandlerOutcome(ErrorReply(Http.StatusBadRequest, LoginUsernameMessage), db)
      else if !PasswordLengthOk(data.password) then
        HandlerOutcome(ErrorReply(Http.StatusBadRequest, LoginPasswordMessage), db)
      else
        match Store.UserByUsername(db, data.username)
        case Failure(e) =>
          if e == Store.RecordNotFound then HandlerOutcome(ErrorReply(Http.StatusUnauthorized, InvalidCredentialsMessage), db)
          else HandlerOutcome(ErrorReply(Http.StatusInternalServerError, DatabaseErrorMessage), db)
        case Success(user) =>
          match Hashing.CheckHashBcrypt(svc.hashing, svc.bcrypt, data.password, user.password)
          case Failure(_) => HandlerOutcome(ErrorReply(Http.StatusInternalServerError, AuthenticationFailedMessage), db)
          case Success(valid) =>
            if !valid then HandlerOutcome(ErrorReply(Http.StatusUnauthorized, InvalidCredentialsMessage), db)
            else
              var session := NewSession(freshSessionId, user.id, now);
              match LoginTx(svc, db, session, now)
              case Failure(f) =>
                if f.Exited? then HandlerOutcome(ProcessExit, db)
                else HandlerOutcome(ErrorReply(Http.StatusInternalServerError, LoginFailedMessage), db)
              case Success((db1, token)) =>
                HandlerOutcome(
                  Reply(Http.StatusOk, AccountBody(user),
                        Some(Http.TokenCookie(token, now + Constants.SessionDuration, svc.httpsOn))),
                  db1)
  }

  /**
   * The login promise: a well-formed request whose password matches the
   * stored hash, with the database up, the generated key free and signing
   * working, is answered 200 with that user's account.
   */
  lemma LoginAccepts(svc: Services, db: Store.Db, body: Option<Credentials>, now: int, freshSessionId: string)
    requires body.Some? && UsernameLengthOk(body.value.username) && PasswordLengthOk(body.value.password)
    requires Store.UserByUsername(db, body.value.username).Success?
    requires var user := Store.UserByUsername(db, body.value.username).value;
             && Hashing.CheckHashBcrypt(svc.hashing, svc.bcrypt, body.value.password, user.password) == Success(true)
             && Tokens.GenerateJwt(svc.lib, svc.secret, user.id, freshSessionId, now).Success?
    requires freshSessionId !in db.sessions
    ensures var o := Login(svc, db, body, now, freshSessionId);
            && o.reply.Reply? && o.reply.status == Http.StatusOk
            && o.reply.body == AccountBody(Store.UserByUsername(db, body.value.username).value)
  {
    assert db.up;
  }

  const LoggedOutMessage: string := "Successfully logged out & revoked session"

  /**
   * `DeleteLogout` for the session the middleware attached: deletes the
   * session row and clears the cookie. The cache is not a parameter because
   * the handler never touches it.
   */
  function Logout(db: Store.Db, session: Session, now: int, httpsOn: bool): (o: HandlerOutcome)
    ensures !db.up ==> o == HandlerOutcome(ErrorReply(Http.StatusInternalServerError, DatabaseErrorMessage), db)
    ensures db.up ==> o.reply == Reply(Http.StatusOk, MessageBody(LoggedOutMessage), Some(Http.ClearingCookie(now, httpsOn)))
    ensures o.db.users == db.users
    ensures db.up ==> o.db.sessions == db.sessions - {session.id} && Store.SessionById(o.db, session.id).Failure?
  {
    match Store.DeleteSession(db, session.id)
    case Failure(_) => HandlerOutcome(ErrorReply(Http.StatusInternalServerError, DatabaseErrorMessage), db)
    case Success(db1) =>
      HandlerOutcome(Reply(Http.StatusOk, MessageBody(LoggedOutMessage), Some(Http.ClearingCookie(now, httpsOn))), db1)
  }

  /**
   * Logout as the revocation message promises: the row is deleted and its
   * `session:<id>` cache entry is dropped as well.
   */
  function LogoutAndEvict(db: Store.Db, cache: Caching.Cache, session: Session, now: int, httpsOn: bool)
    : (r: (HandlerOutcome, Caching.Cache))
    ensures r.0 == Logout(db, session, now, httpsOn)
    ensures db.up && cache.up ==>
              forall codec: Caching.Codec<Session>, t: int ::
                Caching.GetCachedSession(r.1, session.id, codec, t) == Failure(Caching.Miss)
    ensures forall k :: k != Caching.SessionKey(session.id) && k in cache.entries ==>
              k in r.1.entries && r.1.entries[k] == cache.entries[k]
    ensures !(r.0.reply.Reply? && r.0.reply.status == Http.StatusOk) ==> r.1 == cache
  {
    var o := Logout(db, session, now, httpsOn);
    if o.reply.Reply? && o.reply.status == Http.StatusOk then (o, Caching.DropCachedSession(cache, session.id).cache)
    else (o, cache)
  }
}

=== FILE: hashing.dfy ===
/**
 * The salted hashing front-end of lib/security/hashing.go. SHA-512, bcrypt
 * and the operating system's random source are foreign code: they enter as
 * function-valued parameters (or, for randomness, as the bytes drawn), and
 * the only facts assumed about bcrypt are stated by `Lawful`.
 */
module Hashing {
  import opened Wrappers
  import opened Bytes
  import Hex
  import Environment

  /** The package-level configuration read once from the environment. */
  datatype Config = Config(pepper: string, cost: int)

  function ConfigFrom(vars: Environment.Vars): (c: Config)
    ensures c.pepper == Environment.Getenv(vars, "HASH_PEPPER")
    ensures Environment.Getenv(vars, "HASH_PEPPER") == "" <==> c.pepper == ""
    ensures Environment.Getenv(vars, "BCRYPT_COST") == "" ==> c.cost == 16
    ensures Environment.ParseInt32(Environment.Getenv(vars, "BCRYPT_COST")).None? ==> c.cost == 16
    ensures Environment.ParseInt32(Environment.Getenv(vars, "BCRYPT_COST")).Some? ==>
              c.cost == Environment.ParseInt32(Environment.Getenv(vars, "BCRYPT_COST")).value
  {
    Config(Environment.GetEnvString(vars, "HASH_PEPPER", ""), Environment.GetEnvInt(vars, "BCRYPT_COST", 16))
  }

  /** A SHA-512 digest: 64 bytes (FIPS 180-4). */
  type Digest = d: seq<uint8> | |d| == 64 witness seq(64, i => 0)

  /** A salt as the digest front-end uses it: 32 bytes (256 bits). */
  type SaltBytes = s: seq<uint8> | |s| == 32 witness seq(32, i => 0)

  const SaltLength: nat := 32

  datatype HashError =
    | NoPepper
    | NoCost
    | RandomReadFailed
    | SaltMalformed
    | SaltNot32Bytes
    | BcryptFailed
    | CompareFailed(reason: string)

  /** `Hash512Result`: the hex digest and, only when one was generated, the hex salt. */
  datatype Hash512Result = Hash512Result(hashHex: string, salt: Option<string>)

  /** No salt was supplied: a nil pointer or a pointer to "". */
  predicate NoSaltGiven(salt: Option<string>) {
    salt.None? || salt.value == ""
  }

  /**
   * The salt bytes `Hash512` will mix in, or why it refuses: freshly drawn
   * bytes when no salt is given, else the hex-decoded salt, which must be
   * exactly 32 bytes.
   */
  function SaltToUse(entropy: Option<SaltBytes>, salt: Option<string>): (r: Result<seq<uint8>, HashError>)
    ensures r.Success? ==> |r.value| == SaltLength
    ensures NoSaltGiven(salt) ==> (r.Success? <==> entropy.Some?)
    ensures NoSaltGiven(salt) && entropy.Some? ==> r.value == entropy.value
    ensures NoSaltGiven(salt) && entropy.None? ==> r == Failure(RandomReadFailed)
    ensures !NoSaltGiven(salt) && Hex.Decode(salt.value).None? ==> r == Failure(SaltMalformed)
    ensures !NoSaltGiven(salt) && Hex.Decode(salt.value).Some? ==>
              (r.Success? <==> |Hex.Decode(salt.value).value| == SaltLength)
    ensures !NoSaltGiven(salt) && Hex.Decode(salt.value).Some? && |Hex.Decode(salt.value).value| != SaltLength ==>
              r == Failure(SaltNot32Bytes)
    ensures !NoSaltGiven(salt) && r.Success? ==> Hex.Decode(salt.value) == Some(r.value)
  {
    if NoSaltGiven(salt) then
      match entropy
      case None => Failure(RandomReadFailed)
      case Some(bytes) => Success(bytes)
    else
      match Hex.Decode(salt.value)
      case None => Failure(SaltMalformed)
      case Some(bytes) => if |bytes| != SaltLength then Failure(SaltNot32Bytes) else Success(bytes)
  }

  /**
   * The digest step shared by `Hash512` and its peppered correction: hash
   * `input` followed by the salt bytes, hex-encode, and return the salt only
   * when it was generated. `entropy` is what `rand.Read` produced (None when
   * it failed); it is only consulted when no salt is supplied.
   */
  function SaltedDigest(sha512: seq<uint8> -> Digest, entropy: Option<SaltBytes>,
                        input: seq<uint8>, salt: Option<string>): (r: Result<Hash512Result, HashError>)
    ensures r.Success? <==> SaltToUse(entropy, salt).Success?
    ensures r.Failure? ==> r.error == SaltToUse(entropy, salt).error
    ensures r.Success? ==> |r.value.hashHex| == 128 && Hex.IsLowerHex(r.value.hashHex)
    ensures r.Success? ==> Hex.Decode(r.value.hashHex) == Some(sha512(input + SaltToUse(entropy, salt).value))
    ensures r.Success? ==> (r.value.salt.Some? <==> NoSaltGiven(salt))
    ensures r.Success? && r.value.salt.Some? ==>
              |r.value.salt.value| == 64 && Hex.IsLowerHex(r.value.salt.value) && Hex.Decode(r.value.salt.value) == entropy
  {
    match SaltToUse(entropy, salt)
    case Failure(e) => Failure(e)
    case Success(saltBytes) =>
      var digest := sha512(input + saltBytes);
      Hex.DecodeEncode(digest);
      Hex.DecodeEncode(saltBytes);
      var returnSalt := if NoSaltGiven(salt) then Some(Hex.Encode(saltBytes)) else None;
      Success(Hash512Result(Hex.Encode(digest), returnSalt))
  }

  /** A digest made with a generated salt is reproduced from that salt, whatever randomness the second call sees. */
  lemma SaltedDigestRoundTrip(sha512: seq<uint8> -> Digest, e1: Option<SaltBytes>, e2: Option<SaltBytes>, input: seq<uint8>)
    requires SaltedDigest(sha512, e1, input, None).Success?
    ensures var h := SaltedDigest(sha512, e1, input, None).value;
            h.salt.Some? && SaltedDigest(sha512, e2, input, Some(h.salt.value)).Success?
            && SaltedDigest(sha512, e2, input, Some(h.salt.value)).value.hashHex == h.hashHex
  {
  }

  /**
   * `Hash512(text, salt)` as written: it refuses to run without a pepper but
   * then hashes the text and salt alone.
   */
  function Hash512(cfg: Config, sha512: seq<uint8> -> Digest, entropy: Option<SaltBytes>,
                   text: string, salt: Option<string>): (r: Result<Hash512Result, HashError>)
    ensures cfg.pepper == "" ==> r == Failure(NoPepper)
    ensures cfg.pepper != "" ==> (r.Success? <==> SaltToUse(entropy, salt).Success?)
    ensures r.Failure? && cfg.pepper != "" ==> r.error == SaltToUse(entropy, salt).error
    ensures r.Success? ==> |r.value.hashHex| == 128 && Hex.IsLowerHex(r.value.hashHex)
    ensures r.Success? ==>
              Hex.Decode(r.value.hashHex) == Some(sha512(GoBytes(text) + SaltToUse(entropy, salt).value))
    ensures r.Success? ==> (r.value.salt.Some? <==> NoSaltGiven(salt))
    ensures r.Success? && r.value.salt.Some? ==>
              |r.value.salt.value| == 64 && Hex.IsLowerHex(r.value.salt.value) && Hex.Decode(r.value.salt.value) == entropy
  {
    if cfg.pepper == "" then Failure(NoPepper)
    else SaltedDigest(sha512, entropy, GoBytes(text), salt)
  }

  /**
   * `CheckHash512(text, hashHex, salt)`: recompute with the given salt and
   * compare. An empty salt makes `Hash512` draw a fresh one, hence `entropy`.
   */
  function CheckHash512(cfg: Config, sha512: seq<uint8> -> Digest, entropy: Option<SaltBytes>,
                        text: string, hashHex: string, salt: string): (r: Result<bool, HashError>)
    ensures r.Failure? <==> Hash512(cfg, sha512, entropy, text, Some(salt)).Failure?
    ensures r.Success? ==> (r.value <==> Hash512(cfg, sha512, entropy, text, Some(salt)).value.hashHex == hashHex)
  {
    match Hash512(cfg, sha512, entropy, text, Some(salt))
    case Failure(e) => Failure(e)
    case Success(a) => Success(a.hashHex == hashHex)
  }

  /** A hash made with a generated salt checks out against that salt, whatever randomness the check sees. */
  lemma Hash512CheckRoundTrip(cfg: Config, sha512: seq<uint8> -> Digest, e1: Option<SaltBytes>, e2: Option<SaltBytes>, text: string)
    requires Hash512(cfg, sha512, e1, text, None).Success?
    ensures var h := Hash512(cfg, sha512, e1, text, None).value;
            h.salt.Some? && CheckHash512(cfg, sha512, e2, text, h.hashHex, h.salt.value) == Success(true)
  {
  }

  /** The pepper only gates `Hash512`: any two non-empty peppers give the same result. */
  lemma Hash512IgnoresPepper(c1: Config, c2: Config, sha512: seq<uint8> -> Digest, entropy: Option<SaltBytes>,
                             text: string, salt: Option<string>)
    requires c1.pepper != "" && c2.pepper != ""
    ensures Hash512(c1, sha512, entropy, text, salt) == Hash512(c2, sha512, entropy, text, salt)
  {
  }

  /** `Hash512` with the pepper appended to the text before hashing, as `HashBcrypt` does. */
  function Hash512Peppered(cfg: Config, sha512: seq<uint8> -> Digest, entropy: Option<SaltBytes>,
                           text: string, salt: Option<string>): (r: Result<Hash512Result, HashError>)
    ensures cfg.pepper == "" ==> r == Failure(NoPepper)
    ensures cfg.pepper != "" ==> (r.Success? <==> SaltToUse(entropy, salt).Success?)
    ensures r.Success? ==> |r.value.hashHex| == 128 && Hex.IsLowerHex(r.value.hashHex)
    ensures r.Failure? && cfg.pepper != "" ==> r.error == SaltToUse(entropy, salt).error
    ensures r.Success? ==>
              Hex.Decode(r.value.hashHex) == Some(sha512(GoBytes(text) + GoBytes(cfg.pepper) + SaltToUse(entropy, salt).value))
    ensures r.Success? ==> (r.value.salt.Some? <==> NoSaltGiven(salt))
    ensures r.Success? && r.value.salt.Some? ==>
              |r.value.salt.value| == 64 && Hex.IsLowerHex(r.value.salt.value) && Hex.Decode(r.value.salt.value) == entropy
  {
    if cfg.pepper == "" then Failure(NoPepper)
    else
      GoBytesAppend(text, cfg.pepper);
      SaltedDigest(sha512, entropy, GoBytes(text + cfg.pepper), salt)
  }

  function CheckHash512Peppered(cfg: Config, sha512: seq<uint8> -> Digest, entropy: Option<SaltBytes>,
                                text: string, hashHex: string, salt: string): (r: Result<bool, HashError>)
    ensures r.Failure? <==> Hash512Peppered(cfg, sha512, entropy, text, Some(salt)).Failure?
    ensures r.Success? ==> (r.value <==> Hash512Peppered(cfg, sha512, entropy, text, Some(salt)).value.hashHex == hashHex)
  {
    match Hash512Peppered(cfg, sha512, entropy, text, Some(salt))
    case Failure(e) => Failure(e)
    case Success(a) => Success(a.hashHex == hashHex)
  }

  lemma Hash512PepperedCheckRoundTrip(cfg: Config, sha512: seq<uint8> -> Digest, e1: Option<SaltBytes>, e2: Option<SaltBytes>, text: string)
    requires Hash512Peppered(cfg, sha512, e1, text, None).Success?
    ensures var h := Hash512Peppered(cfg, sha512, e1, text, None).value;
            h.salt.Some? && CheckHash512Peppered(cfg, sha512, e2, text, h.hashHex, h.salt.value) == Success(true)
  {
  }

  /**
   * With the pepper mixed in, the bytes SHA-512 sees depend on it: for the
   * same text and salt, peppers that differ as bytes give different inputs.
   */
  lemma PepperChangesInput(text: string, p1: string, p2: string, saltBytes: seq<uint8>)
    requires GoBytes(p1) != GoBytes(p2)
    ensures GoBytes(text) + GoBytes(p1) + saltBytes != GoBytes(text) + GoBytes(p2) + saltBytes
  {
    var in1 := GoBytes(text) + GoBytes(p1) + saltBytes;
    var in2 := GoBytes(text) + GoBytes(p2) + saltBytes;
    // the pepper is the middle of each input
    assert in1[|GoBytes(text)|..|in1| - |saltBytes|] == GoBytes(p1);
    assert in2[|GoBytes(text)|..|in2| - |saltBytes|] == GoBytes(p2);
  }

  /** `sha512` does not collide on the two inputs `a` and `b`: the idealisation, stated for one pair only. */
  ghost predicate NoCollision(sha512: seq<uint8> -> Digest, a: seq<uint8>, b: seq<uint8>) {
    sha512(a) == sha512(b) ==> a == b
  }

  /**
   * So two servers whose peppers differ give the same text and salt
   * different hashes, unless SHA-512 collides on exactly those two inputs.
   */
  lemma PepperChangesDigest(c1: Config, c2: Config, sha512: seq<uint8> -> Digest, text: string, salt: string)
    requires GoBytes(c1.pepper) != GoBytes(c2.pepper)
    requires Hash512Peppered(c1, sha512, None, text, Some(salt)).Success?
    requires Hash512Peppered(c2, sha512, None, text, Some(salt)).Success?
    requires var saltBytes := SaltToUse(None, Some(salt)).value;
             NoCollision(sha512, GoBytes(text) + GoBytes(c1.pepper) + saltBytes, GoBytes(text) + GoBytes(c2.pepper) + saltBytes)
    ensures Hash512Peppered(c1, sha512, None, text, Some(salt)).value.hashHex
            != Hash512Peppered(c2, sha512, None, text, Some(salt)).value.hashHex
  {
    PepperChangesInput(text, c1.pepper, c2.pepper, SaltToUse(None, Some(salt)).value);
  }

  /** What `bcrypt.CompareHashAndPassword` reports. */
  datatype CompareOutcome = Matched | Mismatched | CompareError(reason: string)

  /** The bcrypt library: hash generation at a cost, and comparison. */
  datatype Bcrypt = Bcrypt(
    generate: (seq<uint8>, int) -> Option<string>,
    compare: (string, seq<uint8>) -> CompareOutcome)

  /** The one fact assumed of bcrypt: a hash it generated matches its own password. */
  ghost predicate Lawful(b: Bcrypt) {
    forall pw, cost :: b.generate(pw, cost).Some? ==> b.compare(b.generate(pw, cost).value, pw) == Matched
  }

  /** `HashBcrypt(text)`: the cost is checked before the pepper; the pepper is appended to the text. */
  function HashBcrypt(cfg: Config, bcrypt: Bcrypt, text: string): (r: Result<string, HashError>)
    ensures cfg.cost == 0 ==> r == Failure(NoCost)
    ensures cfg.cost != 0 && cfg.pepper == "" ==> r == Failure(NoPepper)
    ensures cfg.cost != 0 && cfg.pepper != "" ==>
              (r.Success? <==> bcrypt.generate(GoBytes(text + cfg.pepper), cfg.cost).Some?)
    ensures r.Success? ==> Some(r.value) == bcrypt.generate(GoBytes(text + cfg.pepper), cfg.cost)
    ensures r.Failure? ==> r.error in {NoCost, NoPepper, BcryptFailed}
  {
    if cfg.cost == 0 then Failure(NoCost)
    else if cfg.pepper == "" then Failure(NoPepper)
    else
      match bcrypt.generate(GoBytes(text + cfg.pepper), cfg.cost)
      case None => Failure(BcryptFailed)
      case Some(hash) => Success(hash)
  }

  /** `CheckHashBcrypt(text, hash)`: a mismatch is `false`, not an error. */
  function CheckHashBcrypt(cfg: Config, bcrypt: Bcrypt, text: string, hash: string): (r: Result<bool, HashError>)
    ensures cfg.pepper == "" ==> r == Failure(NoPepper)
    ensures cfg.pepper != "" ==> match bcrypt.compare(hash, GoBytes(text + cfg.pepper))
                                 case Matched => r == Success(true)
                                 case Mismatched => r == Success(false)
                                 case CompareError(reason) => r == Failure(CompareFailed(reason))
  {
    if cfg.pepper == "" then Failure(NoPepper)
    else
      match bcrypt.compare(hash, GoBytes(text + cfg.pepper))
      case Matched => Success(true)
      case Mismatched => Success(false)
      case CompareError(reason) => Failure(CompareFailed(reason))
  }

  /** A bcrypt hash checks out against the text it was made from. */
  lemma BcryptRoundTrip(cfg: Config, bcrypt: Bcrypt, text: string)
    requires Lawful(bcrypt)
    requires HashBcrypt(cfg, bcrypt, text).Success?
    ensures CheckHashBcrypt(cfg, bcrypt, text, HashBcrypt(cfg, bcrypt, text).value) == Success(true)
  {
  }
}

=== FILE: hex.dfy ===
/** Go's byte strings: each char of a model string stands for one byte. */
module Bytes {
  type uint8 = x: int | 0 <= x < 256

  /**
   * `[]byte(s)`. Go strings are byte sequences; the model writes each byte as
   * one char, so the conversion takes char codes (reduced to a byte, which
   * changes nothing for the byte-valued chars the model uses).
   */
  function GoBytes(s: string): (b: seq<uint8>)
    ensures |b| == |s|
    ensures forall i :: 0 <= i < |s| && (s[i] as int) < 256 ==> b[i] == s[i] as int
  {
    seq(|s|, i requires 0 <= i < |s| => (s[i] as int) % 256)
  }

  /** Byte strings concatenate as their conversions do. */
  lemma GoBytesAppend(s: string, t: string)
    ensures GoBytes(s + t) == GoBytes(s) + GoBytes(t)
  {
  }
}

/**
 * Base16 encoding as in section 8 of RFC 4648, following Go's `encoding/hex`:
 * encoding writes lower-case digits, decoding accepts either case and fails
 * on an odd length or on any non-hex character.
 */
module Hex {
  import opened Wrappers
  import opened Bytes

  /** The lower-case digit for a nibble: '0'..'9' then 'a'..'f'. */
  function LowerDigit(d: int): (c: char)
    requires 0 <= d < 16
    ensures IsLowerHexDigit(c)
  {
    if d < 10 then ('0' as int + d) as char else ('a' as int + d - 10) as char
  }

  predicate IsHexDigit(c: char) {
    ('0' <= c <= '9') || ('a' <= c <= 'f') || ('A' <= c <= 'F')
  }

  predicate IsLowerHexDigit(c: char) {
    ('0' <= c <= '9') || ('a' <= c <= 'f')
  }

  predicate IsLowerHex(s: string) {
    forall i :: 0 <= i < |s| ==> IsLowerHexDigit(s[i])
  }

  /** The value of one hex digit (`fromHexChar`). */
  function NibbleValue(c: char): (v: int)
    requires IsHexDigit(c)
    ensures 0 <= v < 16
  {
    if '0' <= c <= '9' then c as int - '0' as int
    else if 'a' <= c <= 'f' then c as int - 'a' as int + 10
    else c as int - 'A' as int + 10
  }

  /** `hex.EncodeToString`: two lower-case digits per byte, high nibble first. */
  function Encode(b: seq<uint8>): (s: string)
    ensures |s| == 2 * |b|
    ensures IsLowerHex(s)
  {
    if |b| == 0 then ""
    else [LowerDigit(b[0] / 16), LowerDigit(b[0] % 16)] + Encode(b[1..])
  }

  /** `hex.DecodeString`, with its error folded into None. */
  function Decode(s: string): (r: Option<seq<uint8>>)
    ensures r.Some? <==> |s| % 2 == 0 && forall i :: 0 <= i < |s| ==> IsHexDigit(s[i])
    ensures r.Some? ==> 2 * |r.value| == |s|
    decreases |s|
  {
    if |s| == 0 then Some([])
    else if |s| == 1 || !IsHexDigit(s[0]) || !IsHexDigit(s[1]) then None
    else
      match Decode(s[2..])
      case None => None
      case Some(rest) => Some([NibbleValue(s[0]) * 16 + NibbleValue(s[1])] + rest)
  }

  lemma LowerDigitValue(d: int)
    requires 0 <= d < 16
    ensures IsHexDigit(LowerDigit(d)) && NibbleValue(LowerDigit(d)) == d
  {
  }

  lemma NibbleLowerDigit(c: char)
    requires IsLowerHexDigit(c)
    ensures LowerDigit(NibbleValue(c)) == c
  {
  }

  /** Decoding inverts encoding. */
  lemma {:induction false} DecodeEncode(b: seq<uint8>)
    ensures Decode(Encode(b)) == Some(b)
  {
    if |b| > 0 {
      var s := Encode(b);
      assert s[2..] == Encode(b[1..]);
      LowerDigitValue(b[0] / 16);
      LowerDigitValue(b[0] % 16);
      DecodeEncode(b[1..]);
      assert [b[0]] + b[1..] == b;
    }
  }

  /** Encoding inverts decoding on the lower-case strings that encoding produces. */
  lemma {:induction false} EncodeDecode(s: string)
    requires IsLowerHex(s) && |s| % 2 == 0
    ensures Decode(s).Some? && Encode(Decode(s).value) == s
  {
    if |s| > 0 {
      assert IsLowerHex(s[2..]);
      EncodeDecode(s[2..]);
      var hi := NibbleValue(s[0]);
      var lo := NibbleValue(s[1]);
      NibbleLowerDigit(s[0]);
      NibbleLowerDigit(s[1]);
      var b := Decode(s).value;
      assert b[0] == hi * 16 + lo && b[1..] == Decode(s[2..]).value;
      assert b[0] / 16 == hi && b[0] % 16 == lo;
    }
  }
}

=== FILE: http.dfy ===
/** The HTTP surface shared by the middleware and the handlers: statuses and the credential cookie. */
module Http {
  import Constants
  import Environment

  const StatusOk: int := 200
  const StatusCreated: int := 201
  const StatusBadRequest: int := 400
  const StatusUnauthorized: int := 401
  const StatusConflict: int := 409
  const StatusInternalServerError: int := 500

  const TokenCookieName: string := "jwt_token"

  datatype Cookie = Cookie(
    name: string,
    value: string,
    expires: int,
    httpOnly: bool,
    secure: bool,
    sameSite: string,
    path: string)

  /** The package-level `httpsOn`: NODE_ENV is exactly "production". */
  function HttpsOn(vars: Environment.Vars): (on: bool)
    ensures on <==> Environment.Getenv(vars, "NODE_ENV") == "production"
  {
    Environment.GetEnvString(vars, "NODE_ENV", "") == "production"
  }

  /** Every cookie the core writes: HttpOnly, SameSite=Strict, Path=/, Secure in production. */
  predicate WellFormed(c: Cookie, secure: bool) {
    c.name == TokenCookieName && c.httpOnly && c.secure == secure && c.sameSite == "Strict" && c.path == "/"
  }

  function TokenCookie(token: string, expires: int, secure: bool): (c: Cookie)
    ensures WellFormed(c, secure) && c.value == token && c.expires == expires
  {
    Cookie(TokenCookieName, token, expires, true, secure, "Strict", "/")
  }

  /** The logout cookie: empty, dated five minutes before `now`. */
  function ClearingCookie(now: int, secure: bool): (c: Cookie)
    ensures WellFormed(c, secure) && c.value == "" && c.expires < now
    ensures now - c.expires == Constants.CookieClearBackdate
  {
    TokenCookie("", now - Constants.CookieClearBackdate, secure)
  }
}

=== FILE: introspect.dfy ===
/**
 * The schema-to-Go generator of tools/db-introspect.go, with the SQL results
 * (table names, column descriptions) as inputs and the file text as output.
 * Strings are ASCII; case mapping touches only the letters a-z and A-Z.
 */
module Introspect {
  import opened Wrappers

  // ------------------------------------------------------------ strings

  function Upper(c: char): char {
    if 'a' <= c <= 'z' then (c as int - 32) as char else c
  }

  function Lower(c: char): char {
    if 'A' <= c <= 'Z' then (c as int + 32) as char else c
  }

  function LowerAll(s: string): (r: string)
    ensures |r| == |s| && forall i :: 0 <= i < |s| ==> r[i] == Lower(s[i])
  {
    seq(|s|, i requires 0 <= i < |s| => Lower(s[i]))
  }

  /** `strings.Join(ws, sep)`. */
  function Join(ws: seq<string>, sep: string): string {
    if |ws| == 0 then "" else if |ws| == 1 then ws[0] else ws[0] + sep + Join(ws[1..], sep)
  }

  lemma JoinEmptySepCons(w: string, ws: seq<string>)
    ensures Join([w] + ws, "") == w + Join(ws, "")
  {
  }

  function HasPrefix(s: string, prefix: string): bool {
    |prefix| <= |s| && s[..|prefix|] == prefix
  }

  function HasSuffix(s: string, suffix: string): bool {
    |suffix| <= |s| && s[|s| - |suffix|..] == suffix
  }

  lemma AffixesOfConcat(a: string, b: string, c: string)
    ensures HasPrefix(a + b + c, a) && HasSuffix(a + b + c, c)
  {
  }

  /** `strings.Contains(s, sub)`: `sub` starts at some position of `s`. */
  function ContainsSubstring(s: string, sub: string): bool
    decreases |s|
  {
    HasPrefix(s, sub) || (|s| > 0 && ContainsSubstring(s[1..], sub))
  }

  function CountChar(s: string, c: char): nat {
    if |s| == 0 then 0 else (if s[0] == c then 1 else 0) + CountChar(s[1..], c)
  }

  /** The texts `f` gives the elements of `xs`, concatenated in order. */
  function Concat<T>(f: T -> string, xs: seq<T>): string {
    if |xs| == 0 then "" else f(xs[0]) + Concat(f, xs[1..])
  }

  lemma {:induction false} ConcatAppend<T>(f: T -> string, a: seq<T>, b: seq<T>)
    ensures Concat(f, a + b) == Concat(f, a) + Concat(f, b)
    decreases |a|
  {
    if |a| == 0 {
      assert a + b == b;
    } else {
      assert (a + b)[1..] == a[1..] + b;
      ConcatAppend(f, a[1..], b);
    }
  }

  /** Element `i`'s text comes after the texts of the elements before it and before those after it. */
  lemma ConcatSplit<T>(f: T -> string, xs: seq<T>, i: nat)
    requires i < |xs|
    ensures Concat(f, xs) == Concat(f, xs[..i]) + f(xs[i]) + Concat(f, xs[i + 1..])
  {
    var pre, post := xs[..i], xs[i + 1..];
    assert xs == pre + ([xs[i]] + post);
    ConcatAppend(f, pre, [xs[i]] + post);
    assert ([xs[i]] + post)[1..] == post;
  }

  lemma ConcatAssoc(a: string, b: string, c: string)
    ensures a + (b + c) == (a + b) + c
  {
  }

  lemma ConcatSingle<T>(f: T -> string, x: T)
    ensures Concat(f, [x]) == f(x)
  {
    assert [x][1..] == [];
  }

  /** `x` occurs in `s` starting at position `k`. */
  predicate OccursAt(s: string, k: int, x: string) {
    0 <= k && k + |x| <= |s| && s[k..k + |x|] == x
  }

  /** Inside `head + Concat(f, xs) + foot`, element `i`'s text starts after `head` and the texts before it. */
  lemma ConcatSlice<T>(head: string, f: T -> string, xs: seq<T>, foot: string, i: nat)
    requires i < |xs|
    ensures OccursAt(head + Concat(f, xs) + foot, |head| + |Concat(f, xs[..i])|, f(xs[i]))
  {
    ConcatSplit(f, xs, i);
    var a, x, b := Concat(f, xs[..i]), f(xs[i]), Concat(f, xs[i + 1..]);
    assert head + Concat(f, xs) + foot == (head + a) + x + (b + foot);
  }

  // ------------------------------------------------------- toPascalCase

  /** `strings.Split(s, "_")`: the pieces between underscores, at least one. */
  function Split(s: string): (ws: seq<string>)
    ensures |ws| >= 1
    ensures forall i :: 0 <= i < |ws| ==> '_' !in ws[i]
    ensures Join(ws, "_") == s
    decreases |s|
  {
    if |s| == 0 then [""]
    else
      var rest := Split(s[1..]);
      if s[0] == '_' then
        assert Join([""] + rest, "_") == "" + "_" + Join(rest, "_") by {
          assert ([""] + rest)[1..] == rest;
        }
        [""] + rest
      else
        var ws := [[s[0]] + rest[0]] + rest[1..];
        assert Join(ws, "_") == [s[0]] + Join(rest, "_") by {
          if |rest| > 1 {
            assert ws[1..] == rest[1..];
          }
        }
        assert [s[0]] + s[1..] == s;
        ws
  }

  /** Upper-case the first byte of a non-empty word and lower-case the rest. */
  function Capitalize(w: string): (r: string)
    ensures |r| == |w|
  {
    if |w| == 0 then w else [Upper(w[0])] + LowerAll(w[1..])
  }

  function CapitalizeAll(ws: seq<string>): (r: seq<string>)
    ensures |r| == |ws| && forall i :: 0 <= i < |ws| ==> r[i] == Capitalize(ws[i])
  {
    if |ws| == 0 then [] else [Capitalize(ws[0])] + CapitalizeAll(ws[1..])
  }

  /** `toPascalCase(s)`: split on '_', capitalize each piece, join with nothing. */
  function ToPascalCase(s: string): string {
    Join(CapitalizeAll(Split(s)), "")
  }

  /**
   * A character-level reading of the same conversion: underscores vanish, a
   * character right after one (or at the start) is upper-cased, every other
   * character is lower-cased.
   */
  function PascalChars(s: string, atWordStart: bool): string {
    if |s| == 0 then ""
    else if s[0] == '_' then PascalChars(s[1..], true)
    else [if atWordStart then Upper(s[0]) else Lower(s[0])] + PascalChars(s[1..], false)
  }

  lemma {:induction false} PascalCharsShape(s: string, atWordStart: bool)
    ensures |PascalChars(s, atWordStart)| == |s| - CountChar(s, '_')
    ensures '_' !in PascalChars(s, atWordStart)
    decreases |s|
  {
    if |s| > 0 {
      PascalCharsShape(s[1..], s[0] == '_');
    }
  }

  lemma CapitalizeCons(c: char, w: string)
    ensures Capitalize([c] + w) == [Upper(c)] + LowerAll(w)
  {
  }

  lemma LowerAllCons(c: char, w: string)
    ensures LowerAll([c] + w) == [Lower(c)] + LowerAll(w)
  {
  }

  lemma CapitalizeAllCons(w: string, ws: seq<string>)
    ensures CapitalizeAll([w] + ws) == [Capitalize(w)] + CapitalizeAll(ws)
  {
  }

  /** The first word of `Split(s)`, rendered as `PascalChars` renders it. */
  function Head(w: string, atWordStart: bool): string {
    if atWordStart then Capitalize(w) else LowerAll(w)
  }

  /** What `PascalChars(s, b)` is when `ws` are the words of `s`. */
  predicate PascalOfWords(s: string, atWordStart: bool, ws: seq<string>)
    requires |ws| > 0
  {
    PascalChars(s, atWordStart) == Head(ws[0], atWordStart) + Join(CapitalizeAll(ws[1..]), "")
  }

  lemma SplitUnderscore(s: string)
    requires |s| > 0 && s[0] == '_'
    ensures Split(s) == [""] + Split(s[1..])
  {
  }

  lemma SplitOther(s: string)
    requires |s| > 0 && s[0] != '_'
    ensures Split(s) == [[s[0]] + Split(s[1..])[0]] + Split(s[1..])[1..]
  {
  }

  /** The inductive step at an underscore: the next word starts fresh. */
  lemma PascalUnderscoreStep(s: string, atWordStart: bool, rest: seq<string>)
    requires |s| > 0 && s[0] == '_' && |rest| > 0
    requires PascalOfWords(s[1..], true, rest)
    ensures PascalOfWords(s, atWordStart, [""] + rest)
  {
    var ws := [""] + rest;
    assert ws[0] == "" && ws[1..] == rest;
    CapitalizeAllCons(rest[0], rest[1..]);
    assert [rest[0]] + rest[1..] == rest;
    JoinEmptySepCons(Capitalize(rest[0]), CapitalizeAll(rest[1..]));
  }

  /** The inductive step at any other character: it joins the current word. */
  lemma PascalOtherStep(s: string, atWordStart: bool, rest: seq<string>)
    requires |s| > 0 && s[0] != '_' && |rest| > 0
    requires PascalOfWords(s[1..], false, rest)
    ensures PascalOfWords(s, atWordStart, [[s[0]] + rest[0]] + rest[1..])
  {
    var ws := [[s[0]] + rest[0]] + rest[1..];
    assert ws[0] == [s[0]] + rest[0] && ws[1..] == rest[1..];
    CapitalizeCons(s[0], rest[0]);
    LowerAllCons(s[0], rest[0]);
  }

  lemma {:induction false} PascalCharsSplitGeneral(s: string, atWordStart: bool)
    ensures PascalChars(s, atWordStart) == Head(Split(s)[0], atWordStart) + Join(CapitalizeAll(Split(s)[1..]), "")
    decreases |s|
  {
    if |s| > 0 {
      if s[0] == '_' {
        PascalCharsSplitGeneral(s[1..], true);
        SplitUnderscore(s);
        PascalUnderscoreStep(s, atWordStart, Split(s[1..]));
      } else {
        PascalCharsSplitGeneral(s[1..], false);
        SplitOther(s);
        PascalOtherStep(s, atWordStart, Split(s[1..]));
      }
    }
  }

  lemma PascalCharsSplit(s: string)
    ensures PascalChars(s, true) == Join(CapitalizeAll(Split(s)), "")
  {
    var ws := Split(s);
    PascalCharsSplitGeneral(s, true);
    assert [ws[0]] + ws[1..] == ws;
    CapitalizeAllCons(ws[0], ws[1..]);
    JoinEmptySepCons(Capitalize(ws[0]), CapitalizeAll(ws[1..]));
  }

  /** The result has no underscores, and is shorter than the input by exactly their number. */
  lemma PascalCaseShape(s: string)
    ensures '_' !in ToPascalCase(s)
    ensures |ToPascalCase(s)| == |s| - CountChar(s, '_')
  {
    PascalCharsSplit(s);
    PascalCharsShape(s, true);
  }

  lemma PascalCharsUserId()
    ensures PascalChars("user_id", true) == "UserId"
  {
    assert PascalChars("d", false) == "d";
    assert PascalChars("id", false) == "id";
    assert PascalChars("_id", false) == "Id";
    assert PascalChars("r_id", false) == "rId";
    assert PascalChars("er_id", false) == "erId";
    assert PascalChars("ser_id", false) == "serId";
  }

  /** A column name from the generated models file. */
  lemma PascalCaseExample()
    ensures ToPascalCase("user_id") == "UserId"
  {
    PascalCharsSplit("user_id");
    PascalCharsUserId();
  }

  // ------------------------------------------------- mapPostgresToGoType

  /** The Postgres-to-Go type table. */
  const GoTypeOf: map<string, string> := map[
    "integer" := "int", "int4" := "int",
    "bigint" := "int64", "int8" := "int64",
    "smallint" := "int16", "int2" := "int16",
    "serial" := "uint", "serial4" := "uint",
    "bigserial" := "uint64", "serial8" := "uint64",
    "boolean" := "bool", "bool" := "bool",
    "character varying" := "string", "varchar" := "string", "text" := "string",
    "timestamp with time zone" := "time.Time", "timestamp without time zone" := "time.Time",
    "timestamp" := "time.Time", "date" := "time.Time",
    "numeric" := "float64", "decimal" := "float64",
    "real" := "float32", "float4" := "float32",
    "double precision" := "float64", "float8" := "float64",
    "uuid" := "string",
    "json" := "string", "jsonb" := "string"]

  /** The Go types the table can produce, plus the fallback. */
  const GoTypes: set<string> :=
    {"int", "int64", "int16", "uint", "uint64", "bool", "string", "time.Time", "float64", "float32", "interface{}"}

  /** The switch of `mapPostgresToGoType`, before the nullable pointer. */
  function BaseGoType(pgType: string): (t: string)
    ensures t in GoTypes
  {
    if pgType in GoTypeOf then GoTypeOf[pgType] else "interface{}"
  }

  /** `mapPostgresToGoType`: nullable non-string types become pointers. */
  function MapPostgresToGoType(pgType: string, nullable: bool): (r: string)
    ensures |r| > 0
    ensures r[0] == '*' <==> nullable && BaseGoType(pgType) != "string"
    ensures r[0] == '*' ==> r[1..] == BaseGoType(pgType)
    ensures r[0] != '*' ==> r == BaseGoType(pgType)
  {
    var goType := BaseGoType(pgType);
    if nullable && goType != "string" then "*" + goType else goType
  }

  // --------------------------------------------------- generateGormTags

  /** `contains(slice, item)`. */
  function Contains(slice: seq<string>, item: string): (r: bool)
    ensures r <==> exists i :: 0 <= i < |slice| && slice[i] == item
  {
    if |slice| == 0 then false
    else if slice[0] == item then true
    else
      var r := Contains(slice[1..], item);
      assert forall i :: 1 <= i < |slice| ==> slice[i] == slice[1..][i - 1];
      r
  }

  const TypeUuid: string := "type:uuid"
  const DefaultUuid: string := "default:gen_random_uuid()"
  const NotNull: string := "not null"

  const PrimaryKeyUuidTag: string := "gorm:\"primaryKey;type:uuid;default:gen_random_uuid()\""
  const PrimaryKeyTag: string := "gorm:\"primaryKey\""

  /** The options `generateGormTags` collects for a column other than `id`, in order. */
  function GormOptions(columnName: string, dataType: string, nullable: bool, default: Option<string>): (opts: seq<string>)
    ensures TypeUuid in opts <==> dataType == "uuid"
    ensures multiset(opts)[TypeUuid] <= 1
    ensures DefaultUuid in opts <==> dataType == "uuid" && default.Some? && ContainsSubstring(default.value, "gen_random_uuid()")
    ensures NotNull in opts <==> !nullable
    ensures forall o :: o in opts ==> o == TypeUuid || o == DefaultUuid || o == NotNull
    ensures |opts| == 0 <==> dataType != "uuid" && nullable
    ensures TypeUuid in opts ==> opts[0] == TypeUuid
    ensures NotNull in opts ==> opts[|opts| - 1] == NotNull
  {
    var uuidOpts :=
      if dataType == "uuid" then
        [TypeUuid] + (if default.Some? && ContainsSubstring(default.value, "gen_random_uuid()") then [DefaultUuid] else [])
      else [];
    var fkOpts :=
      if dataType == "uuid" && HasSuffix(columnName, "_id") && columnName != "id" && !Contains(uuidOpts, TypeUuid)
      then uuidOpts + [TypeUuid]
      else uuidOpts;
    if !nullable then fkOpts + [NotNull] else fkOpts
  }

  /** `generateGormTags`: the primary-key tag for `id`, else the joined options, or "" when there are none. */
  function GenerateGormTags(columnName: string, dataType: string, nullable: bool, default: Option<string>): (r: string)
    ensures columnName == "id" ==> r == (if dataType == "uuid" then PrimaryKeyUuidTag else PrimaryKeyTag)
    ensures columnName != "id" ==> (r == "" <==> dataType != "uuid" && nullable)
    ensures columnName != "id" && r != "" ==>
              r == "gorm:\"" + Join(GormOptions(columnName, dataType, nullable, default), ";") + "\""
  {
    if columnName == "id" then
      if dataType == "uuid" then PrimaryKeyUuidTag else PrimaryKeyTag
    else
      var opts := GormOptions(columnName, dataType, nullable, default);
      if |opts| > 0 then "gorm:\"" + Join(opts, ";") + "\"" else ""
  }

  /** Types from the generated models file, and the fallback. */
  lemma GoTypeExamples()
    ensures MapPostgresToGoType("uuid", true) == "string"
    ensures MapPostgresToGoType("timestamp with time zone", false) == "time.Time"
    ensures MapPostgresToGoType("integer", true) == "*int"
    ensures MapPostgresToGoType("point", false) == "interface{}"
  {
  }

  /** The tag of a uuid primary key with a generated default. */
  lemma GormTagPrimaryKey()
    ensures GenerateGormTags("id", "uuid", false, Some("gen_random_uuid()")) == PrimaryKeyUuidTag
  {
  }

  /** A non-null uuid foreign key gets `type:uuid` once, then `not null`. */
  lemma GormOptionsForeignKey()
    ensures GormOptions("user_id", "uuid", false, None) == [TypeUuid, NotNull]
  {
  }

  lemma GormTagForeignKey()
    ensures GenerateGormTags("user_id", "uuid", false, None) == "gorm:\"" + TypeUuid + ";" + NotNull + "\""
  {
    GormOptionsForeignKey();
    assert [TypeUuid, NotNull][1..] == [NotNull];
  }

  // ------------------------------------------------- struct and file text

  /** One row of `information_schema.columns`. */
  datatype Column = Column(name: string, dataType: string, isNullable: string, default: Option<string>)

  /** The text of one struct field: tab-separated name, Go type and tag, then a newline. */
  function FieldText(field: string, goType: string, columnName: string, tags: string): (line: string)
    ensures |line| > 0 && line[0] == '\t' && line[|line| - 1] == '\n'
  {
    var tag := if tags != "" then "`json:\"" + columnName + "\" " + tags + "`" else "`json:\"" + columnName + "\"`";
    "\t" + field + "\t" + goType + "\t" + tag + "\n"
  }

  /** One field of a generated struct. */
  function FieldLine(c: Column): (line: string)
    ensures |line| > 0 && line[0] == '\t' && line[|line| - 1] == '\n'
  {
    var nullable := c.isNullable == "YES";
    FieldText(ToPascalCase(c.name), MapPostgresToGoType(c.dataType, nullable), c.name,
              GenerateGormTags(c.name, c.dataType, nullable, c.default))
  }

  /** The first line of a generated struct. */
  function StructHead(table: string): string {
    "type " + ToPascalCase(table) + " struct {\n"
  }

  /** The closing brace and the `TableName` method returning the table's name. */
  function StructFoot(table: string): (r: string)
    ensures HasSuffix(r, "\treturn \"" + table + "\"\n}")
  {
    var close := "}\n" + "\nfunc (" + ToPascalCase(table) + ") TableName() string {\n";
    var ret := "\treturn \"" + table + "\"\n}";
    AffixesOfConcat(close, "", ret);
    close + "" + ret
  }

  /** A struct for `table` whose columns are rendered by `line`. */
  function StructTextWith(line: Column -> string, table: string, cols: seq<Column>): (r: string)
    ensures HasPrefix(r, StructHead(table))
    ensures HasSuffix(r, StructFoot(table))
  {
    AffixesOfConcat(StructHead(table), Concat(line, cols), StructFoot(table));
    StructHead(table) + Concat(line, cols) + StructFoot(table)
  }

  /** `generateStructFromTable`, given the table's columns in ordinal order. */
  function StructText(table: string, cols: seq<Column>): (r: string)
    ensures HasPrefix(r, StructHead(table))
    ensures HasSuffix(r, StructFoot(table))
  {
    StructTextWith(FieldLine, table, cols)
  }

  lemma StructTextWithField(line: Column -> string, table: string, cols: seq<Column>, i: nat)
    requires i < |cols|
    ensures OccursAt(StructTextWith(line, table, cols), |StructHead(table)| + |Concat(line, cols[..i])|, line(cols[i]))
  {
    ConcatSlice(StructHead(table), line, cols, StructFoot(table), i);
  }

  /**
   * Every column gets its field line, in column order: the line of column
   * `i` sits right after the struct's first line and the lines of the
   * columns before it.
   */
  lemma StructTextField(table: string, cols: seq<Column>, i: nat)
    requires i < |cols|
    ensures OccursAt(StructText(table, cols), |StructHead(table)| + |Concat(FieldLine, cols[..i])|, FieldLine(cols[i]))
  {
    StructTextWithField(FieldLine, table, cols, i);
  }

  predicate IsSystemTable(table: string) {
    HasPrefix(table, "pg_") || table == "schema_migrations"
  }

  /** The table filter of `GenerateModelsFromDatabase`, order kept. */
  function UserTables(tables: seq<string>): (r: seq<string>)
    ensures forall t :: t in r <==> t in tables && !IsSystemTable(t)
    ensures |r| <= |tables|
  {
    if |tables| == 0 then []
    else
      var rest := UserTables(tables[1..]);
      assert forall t :: t in tables <==> t == tables[0] || t in tables[1..];
      if IsSystemTable(tables[0]) then rest else [tables[0]] + rest
  }

  const ModelsHeader: string := "package models\n\t\nimport (\n\t\"time\"\n)\n\n"

  /**
   * The text written to models.go. `columnsOf` is the column query per table;
   * None stands for a failed query, whose table is skipped.
   */
  function ModelsFile(tables: seq<string>, columnsOf: string -> Option<seq<Column>>): (r: string)
    ensures HasPrefix(r, ModelsHeader)
    ensures |tables| == 0 ==> r == ModelsHeader
  {
    AffixesOfConcat(ModelsHeader, Structs(UserTables(tables), columnsOf), "");
    ModelsHeader + Structs(UserTables(tables), columnsOf)
  }

  /** What one table of the generator's loop adds: nothing when skipped, else its struct and a blank line. */
  function TableText(table: string, columnsOf: string -> Option<seq<Column>>): string {
    if IsSystemTable(table) then "" else StructEntry(columnsOf)(table)
  }

  /** A user table's struct and a blank line, or nothing when its column query failed. */
  function StructEntry(columnsOf: string -> Option<seq<Column>>): string -> string {
    table =>
      match columnsOf(table)
      case None => ""
      case Some(cols) => StructText(table, cols) + "\n\n"
  }

  function Structs(tables: seq<string>, columnsOf: string -> Option<seq<Column>>): string {
    Concat(StructEntry(columnsOf), tables)
  }

  lemma {:induction false} UserTablesAppend(tables: seq<string>, t: string)
    ensures UserTables(tables + [t]) == UserTables(tables) + (if IsSystemTable(t) then [] else [t])
    decreases |tables|
  {
    if |tables| == 0 {
      assert tables + [t] == [t];
      assert [t][1..] == [];
    } else {
      assert (tables + [t])[1..] == tables[1..] + [t];
      UserTablesAppend(tables[1..], t);
    }
  }

  /** The structs of the user tables among `tables + [t]`: those of `tables`, then what `t` contributes. */
  lemma StructsAppend(tables: seq<string>, t: string, columnsOf: string -> Option<seq<Column>>)
    ensures Structs(UserTables(tables + [t]), columnsOf) == Structs(UserTables(tables), columnsOf) + TableText(t, columnsOf)
  {
    var entry := StructEntry(columnsOf);
    var before := UserTables(tables);
    UserTablesAppend(tables, t);
    if IsSystemTable(t) {
      assert UserTables(tables + [t]) == before + [];
      assert before + [] == before;
    } else {
      ConcatAppend(entry, before, [t]);
      ConcatSingle(entry, t);
    }
  }

  /**
   * The generator's loop one table at a time: the file for `tables + [t]` is
   * the file for `tables` followed by what `t` contributes.
   */
  lemma ModelsFileAppend(tables: seq<string>, t: string, columnsOf: string -> Option<seq<Column>>)
    ensures ModelsFile(tables + [t], columnsOf) == ModelsFile(tables, columnsOf) + TableText(t, columnsOf)
  {
    StructsAppend(tables, t, columnsOf);
    ConcatAssoc(ModelsHeader, Structs(UserTables(tables), columnsOf), TableText(t, columnsOf));
  }
}

=== FILE: introspect_examples.dfy ===
/**
 * The field line the generator writes for the `user_id` column of the
 * sessions table, checked against the generated models file.
 */
module IntrospectExamples {
  import opened Wrappers
  import opened Introspect

  /** The `user_id` column's field line in terms of its parts. */
  lemma FieldLineForeignKeyParts()
    ensures FieldLine(Column("user_id", "uuid", "NO", None))
            == FieldText("UserId", "string", "user_id", "gorm:\"" + TypeUuid + ";" + NotNull + "\"")
  {
    PascalCaseExample();
    GormTagForeignKey();
    assert MapPostgresToGoType("uuid", false) == "string";
  }

  /** The field layout for the `user_id` column's name, type and tags. */
  lemma FieldTextForeignKey()
    ensures FieldText("UserId", "string", "user_id", "gorm:\"" + TypeUuid + ";" + NotNull + "\"")
            == "\t" + "UserId" + "\t" + "string" + "\t"
               + "`json:\"" + "user_id" + "\" " + "gorm:\"" + TypeUuid + ";" + NotNull + "\"" + "`" + "\n"
  {
  }

  /**
   * The `user_id` line of the generated sessions struct, as models/models.go
   * carries it: name `UserId`, type `string`, and the json and gorm tags.
   */
  lemma FieldLineForeignKey()
    ensures FieldLine(Column("user_id", "uuid", "NO", None))
            == "\t" + "UserId" + "\t" + "string" + "\t"
               + "`json:\"" + "user_id" + "\" " + "gorm:\"" + TypeUuid + ";" + NotNull + "\"" + "`" + "\n"
  {
    FieldLineForeignKeyParts();
    FieldTextForeignKey();
  }
}

=== FILE: lifecycle.dfy ===
/**
 * Properties spanning several components: a freshly registered token
 * authenticates, and what logout does (and does not) revoke.
 */
module Lifecycle {
  import opened Wrappers
  import opened Models
  import Constants
  import Caching
  import Tokens
  import Hashing
  import Store
  import Http
  import Handlers
  import Middleware

  /** The middleware's context in the process whose handlers use `svc`: same secret, library and cookie policy. */
  function ContextOf(svc: Handlers.Services, ttl: int, sessionCodec: Caching.Codec<Session>,
                     userCodec: Caching.Codec<User>): Middleware.Context
  {
    Middleware.Context(svc.lib, svc.secret, svc.httpsOn, ttl, sessionCodec, userCodec)
  }

  /**
   * The cookie a successful registration sets authenticates the next request
   * made in the same second: the session and user are found (in the store,
   * as the cache holds neither), and no rotation happens.
   */
  lemma RegisteredTokenAuthenticates(svc: Handlers.Services, ttl: int, sessionCodec: Caching.Codec<Session>,
                                     userCodec: Caching.Codec<User>, db: Store.Db,
                                     body: Option<Handlers.Credentials>, now: int, ids: Handlers.FreshIds,
                                     cache: Caching.Cache)
    requires Tokens.Sound(svc.lib)
    requires Caching.SessionKey(ids.sessionId) !in cache.entries && Caching.UserKey(ids.userId) !in cache.entries
    requires var o := Handlers.Register(svc, db, body, now, ids);
             o.reply.Reply? && o.reply.status == Http.StatusCreated
    requires svc.lib.validates(Handlers.Register(svc, db, body, now, ids).reply.cookie.value.value)
    ensures var o := Handlers.Register(svc, db, body, now, ids);
            var ctx := ContextOf(svc, ttl, sessionCodec, userCodec);
            var a := Middleware.Authenticate(ctx, o.reply.cookie.value.value, now, cache, o.db);
            && a.response.Next?
            && a.response.cookie.None?
            && a.response.user == o.reply.body.user
            && a.response.session == o.db.sessions[ids.sessionId]
            && a.response.session.userId == a.response.user.id
  {
    var o := Handlers.Register(svc, db, body, now, ids);
    var user := o.reply.body.user;
    Store.UserByIdAppended(db, user);
    assert Store.UserById(o.db, user.id) == Success(user);
  }

  /**
   * The cookie a successful login sets authenticates the next request made in
   * the same second, as the user who logged in and the session just created,
   * provided the `users` table keeps its primary-key constraint.
   */
  lemma LoggedInTokenAuthenticates(svc: Handlers.Services, ttl: int, sessionCodec: Caching.Codec<Session>,
                                   userCodec: Caching.Codec<User>, db: Store.Db,
                                   body: Option<Handlers.Credentials>, now: int, sid: string,
                                   cache: Caching.Cache)
    requires Tokens.Sound(svc.lib) && Store.UniqueIds(db.users)
    requires var o := Handlers.Login(svc, db, body, now, sid);
             && o.reply.Reply? && o.reply.status == Http.StatusOk
             && Caching.SessionKey(sid) !in cache.entries
             && Caching.UserKey(o.reply.body.user.id) !in cache.entries
             && svc.lib.validates(o.reply.cookie.value.value)
    ensures var o := Handlers.Login(svc, db, body, now, sid);
            var ctx := ContextOf(svc, ttl, sessionCodec, userCodec);
            var a := Middleware.Authenticate(ctx, o.reply.cookie.value.value, now, cache, o.db);
            && a.response.Next?
            && a.response.cookie.None?
            && a.response.user == o.reply.body.user
            && a.response.session == o.db.sessions[sid]
            && a.response.session.userId == a.response.user.id
  {
    var o := Handlers.Login(svc, db, body, now, sid);
    var user := o.reply.body.user;
    Store.UserByIdFindsRow(o.db, user);
  }

  /**
   * Registering and then logging in with the same credentials succeeds, as
   * the account just created, given a bcrypt whose hashes match their own
   * passwords, a free key for the new session and working signing.
   */
  lemma RegisterThenLogin(svc: Handlers.Services, db: Store.Db, body: Option<Handlers.Credentials>,
                          now: int, ids: Handlers.FreshIds, later: int, sid: string)
    requires Hashing.Lawful(svc.bcrypt)
    requires var o := Handlers.Register(svc, db, body, now, ids);
             && o.reply.Reply? && o.reply.status == Http.StatusCreated
             && sid !in o.db.sessions
             && Tokens.GenerateJwt(svc.lib, svc.secret, ids.userId, sid, later).Success?
    ensures var o := Handlers.Register(svc, db, body, now, ids);
            var l := Handlers.Login(svc, o.db, body, later, sid);
            && l.reply.Reply? && l.reply.status == Http.StatusOk
            && l.reply.body == o.reply.body
  {
    var o := Handlers.Register(svc, db, body, now, ids);
    var user := o.reply.body.user;
    Store.UserByUsernameAppended(db, user);
    assert o.db == db.(users := db.users + [user]).(sessions := o.db.sessions);
    assert Store.UserByUsername(o.db, user.username) == Success(user);
    Hashing.BcryptRoundTrip(svc.hashing, svc.bcrypt, body.value.password);
    Handlers.LoginAccepts(svc, o.db, body, later, sid);
  }

  /**
   * As written, logout leaves a live `session:<id>` cache entry behind, and
   * the logged-out token keeps authenticating from the cache until that
   * entry's TTL runs out.
   */
  lemma LoggedOutTokenStillAccepted(ctx: Middleware.Context, token: string, now: int, cache: Caching.Cache,
                                    db: Store.Db, s: Session, u: User)
    requires token != "" && Middleware.VerifyToken(ctx.lib, ctx.secret, token).Success?
    requires var claims := Middleware.VerifyToken(ctx.lib, ctx.secret, token).value;
             && !Middleware.NeedsRotation(claims, now)
             && s.id == claims.sid
             && Caching.GetCachedSession(cache, claims.sid, ctx.sessionCodec, now) == Success(s)
             && Caching.GetCachedUser(cache, claims.uid, ctx.userCodec, now) == Success(u)
    requires Handlers.Logout(db, s, now, ctx.httpsOn).reply.Reply?
    requires Handlers.Logout(db, s, now, ctx.httpsOn).reply.status == Http.StatusOk
    ensures var after := Handlers.Logout(db, s, now, ctx.httpsOn).db;
            && s.id !in after.sessions
            && Middleware.Authenticate(ctx, token, now, cache, after).response == Middleware.Next(None, u, s)
  {
  }

  /** With the cache entry dropped too, the same replay is refused as a logout and the cookie is cleared. */
  lemma EvictingLogoutRevokes(ctx: Middleware.Context, token: string, now: int, cache: Caching.Cache,
                              db: Store.Db, s: Session)
    requires db.up && cache.up
    requires token != "" && Middleware.VerifyToken(ctx.lib, ctx.secret, token).Success?
    requires var claims := Middleware.VerifyToken(ctx.lib, ctx.secret, token).value;
             s.id == claims.sid && Middleware.Refresh(ctx, claims, now).Success?
    ensures var (o, cache') := Handlers.LogoutAndEvict(db, cache, s, now, ctx.httpsOn);
            var claims := Middleware.VerifyToken(ctx.lib, ctx.secret, token).value;
            Middleware.Authenticate(ctx, token, now, cache', o.db).response
            == Middleware.Unauthorized(Middleware.SessionMissingMessage(s.id), Some(Http.ClearingCookie(now, ctx.httpsOn)))
  {
  }
}

=== FILE: logging.dfy ===
/**
 * The log routing decision of `Log` in config/log.go. Printing and the
 * database write are effects; the model returns which of them happen and
 * what `Log` hands back to its caller.
 */
module Logging {
  import opened Wrappers
  import opened Bytes
  import Environment

  /** The logger method a message is routed to. */
  datatype Sink = Silent | DebugSink | InfoSink | WarnSink | ErrorSink | FatalSink

  /** What the caller observes: nil, an error carrying a message, or process termination. */
  datatype Return = Nil | Err(message: string) | Exit

  /** The row written to the `logs` table. */
  datatype LogRow = LogRow(message: string, level: int)

  datatype Effect = Effect(persisted: Option<LogRow>, sink: Sink, result: Return)

  /** The package-level `env`, read once: NODE_ENV, defaulting to "development". */
  function NodeEnv(vars: Environment.Vars): (env: string)
    ensures env != ""
    ensures Environment.Getenv(vars, "NODE_ENV") != "" ==> env == Environment.Getenv(vars, "NODE_ENV")
  {
    Environment.GetEnvString(vars, "NODE_ENV", "development")
  }

  /** The error `Log` returns when the package-level `env` is empty. */
  const NoEnvMessage: string := "no ENV found"

  /** Whether a message gets past the environment filters at all. */
  predicate PassesFilters(env: string, level: uint8) {
    env != "" && !(env == "production" && level == 0)
  }

  function SinkFor(level: uint8, isFatal: bool, env: string): Sink {
    if level == 0 then DebugSink
    else if level == 1 then InfoSink
    else if level == 2 then WarnSink
    else if level == 3 then (if isFatal && env == "development" then FatalSink else ErrorSink)
    else DebugSink
  }

  /**
   * `Log(msg, level, isFatal, saveLog)` under environment `env`, where
   * `dbConnected` says whether the package-level database handle is non-nil.
   */
  function Log(env: string, msg: string, level: uint8, isFatal: bool, saveLog: bool, dbConnected: bool): (e: Effect)
    ensures env == "" ==> e == Effect(None, Silent, Err(NoEnvMessage))
    ensures env == "production" && level == 0 ==> e == Effect(None, Silent, Nil)
    ensures e.persisted.Some? <==> PassesFilters(env, level) && saveLog && dbConnected
    ensures e.persisted.Some? ==> e.persisted.value == LogRow(msg, level)
    ensures e.result.Exit? <==> level == 3 && isFatal && env == "development"
    ensures e.result.Err? && env != "" ==> level == 3 && isFatal && e.result.message == msg
    ensures PassesFilters(env, level) && !(level == 3 && isFatal) ==> e.result == Nil
    ensures PassesFilters(env, level) && level == 3 && isFatal && env != "development" ==> e.result == Err(msg)
    ensures PassesFilters(env, level) && level == 0 ==> e.sink == DebugSink
    ensures PassesFilters(env, level) && level == 1 ==> e.sink == InfoSink
    ensures PassesFilters(env, level) && level == 2 ==> e.sink == WarnSink
    ensures PassesFilters(env, level) && level == 3 && isFatal && env == "development" ==> e.sink == FatalSink
    ensures PassesFilters(env, level) && level == 3 && !(isFatal && env == "development") ==> e.sink == ErrorSink
    ensures PassesFilters(env, level) && level > 3 ==> e.sink == DebugSink
  {
    if env == "" then Effect(None, Silent, Err(NoEnvMessage))
    else if env == "production" && level == 0 then Effect(None, Silent, Nil)
    else
      var persisted := if saveLog && dbConnected then Some(LogRow(msg, level)) else None;
      var sink := SinkFor(level, isFatal, env);
      var result :=
        if level == 3 && isFatal then (if env == "development" then Exit else Err(msg))
        else Nil;
      Effect(persisted, sink, result)
  }

  /**
   * With `env` read through NODE_ENV's default, the "no ENV found" branch never
   * fires: only a fatal level-3 message outside development returns an error,
   * and that error carries the message itself.
   */
  lemma NoEnvBranchUnreachable(vars: Environment.Vars, msg: string, level: uint8, isFatal: bool, saveLog: bool, dbConnected: bool)
    ensures !(level == 3 && isFatal) ==> Log(NodeEnv(vars), msg, level, isFatal, saveLog, dbConnected).result != Err(NoEnvMessage)
    ensures Log(NodeEnv(vars), msg, level, isFatal, saveLog, dbConnected).result.Err? ==>
              Log(NodeEnv(vars), msg, level, isFatal, saveLog, dbConnected).result == Err(msg)
  {
  }

  /** Persisting does not depend on the level once a message passes the filters. */
  lemma PersistenceIndependentOfLevel(env: string, msg: string, l1: uint8, l2: uint8, isFatal: bool, saveLog: bool, dbConnected: bool)
    requires PassesFilters(env, l1) && PassesFilters(env, l2)
    ensures Log(env, msg, l1, isFatal, saveLog, dbConnected).persisted.Some?
        == Log(env, msg, l2, isFatal, saveLog, dbConnected).persisted.Some?
  {
  }
}

=== FILE: middleware.dfy ===
/**
 * `CoreMiddleware` (middleware/core.go) as a decision procedure from the
 * request cookie, the clock and the cache and store state to an outcome:
 * the response, the cache as the two lookups leave it, and which lookups
 * reached the store. The two lookup goroutines touch disjoint cache keys
 * and are joined in a fixed order, so they are run one after the other
 * (`LookupsCommute` shows the order does not matter).
 */
module Middleware {
  import opened Wrappers
  import opened Models
  import Constants
  import Caching
  import Tokens
  import Store
  import Http

  /** Everything fixed at process start, plus the foreign libraries. */
  datatype Context = Context(
    lib: Tokens.JwtLibrary,
    secret: string,
    httpsOn: bool,
    ttl: int,
    sessionCodec: Caching.Codec<Session>,
    userCodec: Caching.Codec<User>)

  // ---------------------------------------------------------------- verify

  datatype ParseFailure =
    | Undecodable
    | UnexpectedSigningMethod(alg: Tokens.Alg)
    | SignatureInvalid
    | ClaimsRejected
    | ClaimsWrongType
    | NoExpiry

  /**
   * `ParseWithClaims` with the HMAC-only key function, then the claims type
   * and `ExpiresAt` checks. Success yields claims that carry an expiry.
   */
  function VerifyToken(lib: Tokens.JwtLibrary, secret: string, token: string): (r: Result<Tokens.Claims, ParseFailure>)
    ensures r.Success? <==>
              && lib.decode(token).Some?
              && Tokens.IsHmac(lib.decode(token).value.alg)
              && lib.verifies(token, secret)
              && lib.validates(token)
              && lib.decode(token).value.payload.Typed?
              && lib.decode(token).value.payload.claims.expiresAt.Some?
    ensures r.Success? ==> r.value.expiresAt.Some? && lib.decode(token).value.payload == Tokens.Typed(r.value)
    ensures lib.decode(token).Some? && !Tokens.IsHmac(lib.decode(token).value.alg) ==>
              r == Failure(UnexpectedSigningMethod(lib.decode(token).value.alg))
  {
    match lib.decode(token)
    case None => Failure(Undecodable)
    case Some(jws) =>
      if !Tokens.IsHmac(jws.alg) then Failure(UnexpectedSigningMethod(jws.alg))
      else if !lib.verifies(token, secret) then Failure(SignatureInvalid)
      else if !lib.validates(token) then Failure(ClaimsRejected)
      else match jws.payload
        case WrongType => Failure(ClaimsWrongType)
        case NilClaims => Failure(NoExpiry)
        case Typed(claims) => if claims.expiresAt.None? then Failure(NoExpiry) else Success(claims)
  }

  /** A token the generator issued passes verification with the claims it was issued with. */
  lemma IssuedTokenVerifies(lib: Tokens.JwtLibrary, secret: string, uid: string, sid: string, duration: int, now: int)
    requires Tokens.Sound(lib)
    requires Tokens.GenerateJwtWithDuration(lib, secret, uid, sid, duration, now).Success?
    requires lib.validates(Tokens.GenerateJwtWithDuration(lib, secret, uid, sid, duration, now).value)
    ensures VerifyToken(lib, secret, Tokens.GenerateJwtWithDuration(lib, secret, uid, sid, duration, now).value)
            == Success(Tokens.IssuedClaims(uid, sid, duration, now))
  {
  }

  // --------------------------------------------------------------- lookups

  /** One lookup's result, the cache it leaves, and whether it reached the store. */
  datatype Lookup<T> = Lookup(found: Option<T>, cache: Caching.Cache, storeRead: bool)

  /**
   * Cache-aside read: a cache hit returns at once; a miss or any other cache
   * error falls through to the store; a store hit is written back, and a
   * failed write-back does not fail the lookup.
   */
  function Resolve<T>(cache: Caching.Cache, key: string, codec: Caching.Codec<T>, row: Result<T, Store.DbError>,
                      ttl: int, now: int): (l: Lookup<T>)
    ensures Caching.Fetch(cache, key, codec, now).Success? ==>
              l == Lookup(Some(Caching.Fetch(cache, key, codec, now).value), cache, false)
    ensures Caching.Fetch(cache, key, codec, now).Failure? ==> l.storeRead && l.found == row.ToOption()
    ensures l.found.None? ==> l.cache == cache
    ensures l.storeRead && row.Success? ==> l.cache == Caching.Put(cache, key, row.value, codec, ttl, now).cache
  {
    match Caching.Fetch(cache, key, codec, now)
    case Success(v) => Lookup(Some(v), cache, false)
    case Failure(_) =>
      match row
      case Failure(_) => Lookup(None, cache, true)
      case Success(v) => Lookup(Some(v), Caching.Put(cache, key, v, codec, ttl, now).cache, true)
  }

  function ResolveSession(ctx: Context, cache: Caching.Cache, db: Store.Db, sid: string, now: int): Lookup<Session> {
    Resolve(cache, Caching.SessionKey(sid), ctx.sessionCodec, Store.SessionById(db, sid), ctx.ttl, now)
  }

  function ResolveUser(ctx: Context, cache: Caching.Cache, db: Store.Db, uid: string, now: int): Lookup<User> {
    Resolve(cache, Caching.UserKey(uid), ctx.userCodec, Store.UserById(db, uid), ctx.ttl, now)
  }

  /** A second lookup right after a store fallback is served from the cache, with the same value. */
  lemma SecondLookupHitsCache<T(!new)>(cache: Caching.Cache, key: string, codec: Caching.Codec<T>,
                                       row: Result<T, Store.DbError>, ttl: int, now: int, later: int)
    requires Caching.Lawful(codec)
    requires cache.up && row.Success? && codec.encode(row.value).Some?
    requires Caching.Fetch(cache, key, codec, now).Failure?
    requires now <= later && (ttl <= 0 || later < now + ttl)
    ensures var first := Resolve(cache, key, codec, row, ttl, now);
            var second := Resolve(first.cache, key, codec, row, ttl, later);
            first.storeRead && !second.storeRead && second.found == first.found == Some(row.value)
  {
  }

  /** The session and user lookups touch disjoint keys, so running them in either order gives the same results. */
  lemma LookupsCommute(ctx: Context, cache: Caching.Cache, db: Store.Db, sid: string, uid: string, now: int)
    ensures var s1 := ResolveSession(ctx, cache, db, sid, now);
            var u1 := ResolveUser(ctx, s1.cache, db, uid, now);
            var u2 := ResolveUser(ctx, cache, db, uid, now);
            var s2 := ResolveSession(ctx, u2.cache, db, sid, now);
            s1.found == s2.found && u1.found == u2.found && u1.cache == s2.cache
            && s1.storeRead == s2.storeRead && u1.storeRead == u2.storeRead
  {
    var sk, uk := Caching.SessionKey(sid), Caching.UserKey(uid);
    Caching.KeysDistinct(sid, uid);
    var s1 := ResolveSession(ctx, cache, db, sid, now);
    var u2 := ResolveUser(ctx, cache, db, uid, now);
    // neither write-back changes what the other lookup fetches
    assert Caching.Fetch(s1.cache, uk, ctx.userCodec, now) == Caching.Fetch(cache, uk, ctx.userCodec, now);
    assert Caching.Fetch(u2.cache, sk, ctx.sessionCodec, now) == Caching.Fetch(cache, sk, ctx.sessionCodec, now);
  }

  // -------------------------------------------------------------- decision

  datatype Response =
    | Unauthorized(error: string, cookie: Option<Http.Cookie>)
    | ServerError(error: string)
    | ProcessExit
    | Next(cookie: Option<Http.Cookie>, user: User, session: Session)

  function Status(r: Response): int
    requires !r.ProcessExit?
  {
    match r
    case Unauthorized(_, _) => Http.StatusUnauthorized
    case ServerError(_) => Http.StatusInternalServerError
    case Next(_, _, _) => Http.StatusOk
  }

  const NoTokenMessage: string := "No JWT Token found"
  const ParseFailedMessage: string := "Token failed to parse"

  function SessionMissingMessage(sid: string): string {
    "Could not find session (" + sid + "), likely expired"
  }

  function UserMissingMessage(uid: string): string {
    "Could not find user (" + uid + ") attached to request"
  }

  function RefreshFailedMessage(uid: string): string {
    "Internal Server Error when trying to refresh JWT for UserId: " + uid
  }

  /** Rotate when the token has at most the refresh threshold left (`time.Until(exp) <= 30s`). */
  predicate NeedsRotation(claims: Tokens.Claims, now: int)
    requires claims.expiresAt.Some?
  {
    claims.expiresAt.value - now <= Constants.JwtRefreshThreshold
  }

  /** The replacement token, when rotation is due; `Success("")` when it is not. */
  function Refresh(ctx: Context, claims: Tokens.Claims, now: int): Result<string, Tokens.JwtError>
    requires claims.expiresAt.Some?
  {
    if NeedsRotation(claims, now) then Tokens.GenerateJwt(ctx.lib, ctx.secret, claims.uid, claims.sid, now)
    else Success("")
  }

  /**
   * The joins after verification: the refresh result first, then the session
   * result, then the user result. The session row's `expiresAt` is not read.
   */
  function Decide(ctx: Context, claims: Tokens.Claims, now: int, session: Option<Session>, user: Option<User>): (r: Response)
    requires claims.expiresAt.Some?
    ensures r.ProcessExit? <==> NeedsRotation(claims, now) && ctx.secret == ""
    ensures r.ServerError? <==> Refresh(ctx, claims, now) == Failure(Tokens.SigningFailed)
    ensures r.ServerError? ==> r.error == RefreshFailedMessage(claims.uid)
    ensures Refresh(ctx, claims, now).Success? && session.None? ==>
              r == Unauthorized(SessionMissingMessage(claims.sid), Some(Http.ClearingCookie(now, ctx.httpsOn)))
    ensures Refresh(ctx, claims, now).Success? && session.Some? && user.None? ==>
              r == Unauthorized(UserMissingMessage(claims.uid), None)
    ensures r.Next? <==> Refresh(ctx, claims, now).Success? && session.Some? && user.Some?
    ensures r.Next? ==> r.user == user.value && r.session == session.value
    ensures r.Next? ==> (r.cookie.Some? <==> NeedsRotation(claims, now))
    ensures r.Next? && r.cookie.Some? ==>
              r.cookie.value == Http.TokenCookie(Refresh(ctx, claims, now).value, now + Constants.SessionDuration, ctx.httpsOn)
  {
    match Refresh(ctx, claims, now)
    case Failure(e) => if e.SecretMissing? then ProcessExit else ServerError(RefreshFailedMessage(claims.uid))
    case Success(newToken) =>
      if session.None? then
        Unauthorized(SessionMissingMessage(claims.sid), Some(Http.ClearingCookie(now, ctx.httpsOn)))
      else if user.None? then
        Unauthorized(UserMissingMessage(claims.uid), None)
      else
        var cookie :=
          if NeedsRotation(claims, now)
          then Some(Http.TokenCookie(newToken, now + Constants.SessionDuration, ctx.httpsOn))
          else None;
        Next(cookie, user.value, session.value)
  }

  datatype LookupKind = SessionLookup | UserLookup

  /** The response, the cache as the request leaves it, and which lookups reached the store. */
  datatype Outcome = Outcome(response: Response, cache: Caching.Cache, storeReads: set<LookupKind>)

  function ReadsOf(s: Lookup<Session>, u: Lookup<User>): (k: set<LookupKind>)
    ensures SessionLookup in k <==> s.storeRead
    ensures UserLookup in k <==> u.storeRead
  {
    (if s.storeRead then {SessionLookup} else {}) + (if u.storeRead then {UserLookup} else {})
  }

  /** One request through `CoreMiddleware`. `cookie` is "" when the cookie is absent. */
  function Authenticate(ctx: Context, cookie: string, now: int, cache: Caching.Cache, db: Store.Db): (o: Outcome)
    ensures cookie == "" ==> o == Outcome(Unauthorized(NoTokenMessage, None), cache, {})
    ensures cookie != "" && VerifyToken(ctx.lib, ctx.secret, cookie).Failure? ==>
              o == Outcome(Unauthorized(ParseFailedMessage, None), cache, {})
    ensures o.response.Next? || o.response.ServerError? || o.response.ProcessExit? ==>
              cookie != "" && VerifyToken(ctx.lib, ctx.secret, cookie).Success?
    ensures o.storeReads != {} ==> cookie != "" && VerifyToken(ctx.lib, ctx.secret, cookie).Success?
    ensures cookie != "" && VerifyToken(ctx.lib, ctx.secret, cookie).Success? ==>
              var claims := VerifyToken(ctx.lib, ctx.secret, cookie).value;
              var s := ResolveSession(ctx, cache, db, claims.sid, now);
              var u := ResolveUser(ctx, s.cache, db, claims.uid, now);
              o == Outcome(Decide(ctx, claims, now, s.found, u.found), u.cache, ReadsOf(s, u))
  {
    if cookie == "" then Outcome(Unauthorized(NoTokenMessage, None), cache, {})
    else
      match VerifyToken(ctx.lib, ctx.secret, cookie)
      case Failure(_) => Outcome(Unauthorized(ParseFailedMessage, None), cache, {})
      case Success(claims) =>
        var s := ResolveSession(ctx, cache, db, claims.sid, now);
        var u := ResolveUser(ctx, s.cache, db, claims.uid, now);
        Outcome(Decide(ctx, claims, now, s.found, u.found), u.cache, ReadsOf(s, u))
  }

  /**
   * A rotated cookie carries a 5-minute token but itself lives for the
   * 28-day session duration.
   */
  lemma RotatedCookieOutlivesToken(ctx: Context, cookie: string, now: int, cache: Caching.Cache, db: Store.Db)
    requires Tokens.Sound(ctx.lib)
    requires Authenticate(ctx, cookie, now, cache, db).response.Next?
    requires Authenticate(ctx, cookie, now, cache, db).response.cookie.Some?
    ensures var c := Authenticate(ctx, cookie, now, cache, db).response.cookie.value;
            && c.expires == now + Constants.SessionDuration
            && ctx.lib.decode(c.value).Some?
            && ctx.lib.decode(c.value).value.payload.Typed?
            && ctx.lib.decode(c.value).value.payload.claims.expiresAt == Some(now + Constants.JwtDuration)
            && c.expires - ctx.lib.decode(c.value).value.payload.claims.expiresAt.value
               == Constants.SessionDuration - Constants.JwtDuration
  {
  }

  /**
   * A session row already past its own `expiresAt` is accepted: only the
   * store's (or cache's) say-so decides, never the timestamp.
   */
  lemma ExpiredSessionAccepted(ctx: Context, claims: Tokens.Claims, now: int, s: Session, u: User)
    requires claims.expiresAt.Some? && !NeedsRotation(claims, now)
    requires s.expiresAt < now
    ensures Decide(ctx, claims, now, Some(s), Some(u)) == Next(None, u, s)
  {
  }

  /** Changing the session's expiry never changes the decision's kind or cookie. */
  lemma SessionExpiryNotConsulted(ctx: Context, claims: Tokens.Claims, now: int, s: Session, user: Option<User>, e: int)
    requires claims.expiresAt.Some?
    ensures var r1 := Decide(ctx, claims, now, Some(s), user);
            var r2 := Decide(ctx, claims, now, Some(s.(expiresAt := e)), user);
            r1.Next? == r2.Next? && (r1.Next? ==> r1.cookie == r2.cookie) && (!r1.Next? ==> r1 == r2)
  {
  }

  /** `SecurityHeaders`: the four headers set on every response; other headers are kept. */
  function SecurityHeaders(headers: map<string, string>): (r: map<string, string>)
    ensures r.Keys == headers.Keys + {"X-Content-Type-Options", "X-Frame-Options", "X-XSS-Protection", "Referrer-Policy"}
    ensures r["X-Content-Type-Options"] == "nosniff" && r["X-Frame-Options"] == "DENY"
    ensures r["X-XSS-Protection"] == "1; mode=block" && r["Referrer-Policy"] == "strict-origin-when-cross-origin"
    ensures forall k :: k in headers && k !in {"X-Content-Type-Options", "X-Frame-Options", "X-XSS-Protection", "Referrer-Policy"} ==>
              r[k] == headers[k]
  {
    headers["X-Content-Type-Options" := "nosniff"]["X-Frame-Options" := "DENY"]
           ["X-XSS-Protection" := "1; mode=block"]["Referrer-Policy" := "strict-origin-when-cross-origin"]
  }
}

=== FILE: models.dfy ===
/** Durations from `constants/auth.go`, in whole seconds. */
module Constants {
  /** Lifetime of an issued access token (5 minutes). */
  const JwtDuration: int := 5 * 60
  /** A token with this many seconds or fewer left is re-issued (30 seconds). */
  const JwtRefreshThreshold: int := 30
  /** Lifetime of a login session and of its cookie (28 days). */
  const SessionDuration: int := 28 * 24 * 60 * 60
  /** The clearing cookie is dated this many seconds in the past (5 minutes). */
  const CookieClearBackdate: int := 5 * 60
}

/** Rows of the `users` and `sessions` tables; timestamps are Unix seconds. */
module Models {

  /**
   * Go's zero `time.Time` (00:00:00 UTC on January 1 of year 1) in Unix
   * seconds: what a timestamp field holds when neither the code nor GORM
   * sets it. GORM fills only fields named `CreatedAt`/`UpdatedAt` (or
   * tagged `autoCreateTime`/`autoUpdateTime`), so `LastUpdatedAt` keeps it.
   */
  const GoZeroTime: int := -62135596800

  datatype User = User(
    id: string,
    username: string,
    password: string,
    isVerified: bool,
    createdAt: int,
    lastUpdatedAt: int)

  datatype Session = Session(
    id: string,
    expiresAt: int,
    userId: string,
    createdAt: int,
    lastUpdatedAt: int)
}

=== FILE: store.dfy ===
/**
 * The relational store as the core uses it: the `users` table as its rows in
 * scan order (GORM's `First` returns the first matching row), the `sessions`
 * table keyed by primary key, and an availability flag (a down or timed-out
 * database fails every statement).
 */
module Store {
  import opened Wrappers
  import opened Models

  datatype DbError = RecordNotFound | Unavailable | DuplicateKey

  datatype Db = Db(up: bool, users: seq<User>, sessions: map<string, Session>)

  /** The first row satisfying `p`, if any. */
  function FirstUser(users: seq<User>, p: User -> bool): (r: Option<User>)
    ensures r.None? <==> forall i :: 0 <= i < |users| ==> !p(users[i])
    ensures r.Some? ==> exists i :: 0 <= i < |users| && users[i] == r.value && p(users[i])
                                    && forall j :: 0 <= j < i ==> !p(users[j])
  {
    if |users| == 0 then None
    else if p(users[0]) then Some(users[0])
    else
      var r := FirstUser(users[1..], p);
      assert forall i :: 1 <= i < |users| ==> users[i] == users[1..][i - 1];
      r
  }

  function FindFirst(db: Db, p: User -> bool): (r: Result<User, DbError>)
    ensures !db.up ==> r == Failure(Unavailable)
    ensures db.up ==> r.ToOption() == FirstUser(db.users, p)
    ensures r.Failure? && db.up ==> r.error == RecordNotFound
  {
    if !db.up then Failure(Unavailable)
    else match FirstUser(db.users, p)
      case None => Failure(RecordNotFound)
      case Some(u) => Success(u)
  }

  /** `First(&user, "username = ?", name)`. */
  function UserByUsername(db: Db, name: string): (r: Result<User, DbError>)
    ensures r.Success? ==> r.value in db.users && r.value.username == name
    ensures db.up && r.Failure? ==> r.error == RecordNotFound && forall u :: u in db.users ==> u.username != name
  {
    FindFirst(db, (u: User) => u.username == name)
  }

  /** `First(&user, "id = ?", id)`. */
  function UserById(db: Db, id: string): (r: Result<User, DbError>)
    ensures r.Success? ==> r.value in db.users && r.value.id == id
    ensures db.up && r.Failure? ==> r.error == RecordNotFound && forall u :: u in db.users ==> u.id != id
  {
    FindFirst(db, (u: User) => u.id == id)
  }

  /** `First(&session, "id = ?", id)`. */
  function SessionById(db: Db, id: string): (r: Result<Session, DbError>)
    ensures r.Success? <==> db.up && id in db.sessions
    ensures r.Success? ==> r.value == db.sessions[id]
    ensures !db.up ==> r == Failure(Unavailable)
  {
    if !db.up then Failure(Unavailable)
    else if id in db.sessions then Success(db.sessions[id])
    else Failure(RecordNotFound)
  }

  /** `Create(&user)`: appends the row unless the database is down or the key is taken. */
  function InsertUser(db: Db, u: User): (r: Result<Db, DbError>)
    ensures r.Success? <==> db.up && forall v :: v in db.users ==> v.id != u.id
    ensures r.Success? ==> r.value == db.(users := db.users + [u])
  {
    if !db.up then Failure(Unavailable)
    else if exists v :: v in db.users && v.id == u.id then Failure(DuplicateKey)
    else Success(db.(users := db.users + [u]))
  }

  /** `Create(&session)`. */
  function InsertSession(db: Db, s: Session): (r: Result<Db, DbError>)
    ensures r.Success? <==> db.up && s.id !in db.sessions
    ensures r.Success? ==> r.value == db.(sessions := db.sessions[s.id := s])
  {
    if !db.up then Failure(Unavailable)
    else if s.id in db.sessions then Failure(DuplicateKey)
    else Success(db.(sessions := db.sessions[s.id := s]))
  }

  /** `Delete(&session)`: by primary key; deleting an absent row is not an error. */
  function DeleteSession(db: Db, id: string): (r: Result<Db, DbError>)
    ensures r.Success? <==> db.up
    ensures r.Success? ==> r.value.users == db.users && r.value.sessions == db.sessions - {id}
  {
    if !db.up then Failure(Unavailable)
    else Success(db.(sessions := db.sessions - {id}))
  }

  /** The primary-key constraint on `users`: no two rows share an id. */
  predicate UniqueIds(users: seq<User>) {
    forall i, j :: 0 <= i < |users| && 0 <= j < |users| && users[i].id == users[j].id ==> i == j
  }

  /** `InsertUser` keeps the primary-key constraint. */
  lemma InsertUserKeepsUniqueIds(db: Db, u: User)
    requires UniqueIds(db.users) && InsertUser(db, u).Success?
    ensures UniqueIds(InsertUser(db, u).value.users)
  {
    var users := db.users + [u];
    forall i, j | 0 <= i < |users| && 0 <= j < |users| && users[i].id == users[j].id
      ensures i == j
    {
      if i < |db.users| { assert db.users[i] in db.users; }
      if j < |db.users| { assert db.users[j] in db.users; }
    }
  }

  /** Under the key constraint, looking a row up by its id finds that row. */
  lemma UserByIdFindsRow(db: Db, u: User)
    requires db.up && UniqueIds(db.users) && u in db.users
    ensures UserById(db, u.id) == Success(u)
  {
    var k :| 0 <= k < |db.users| && db.users[k] == u;
    var r := UserById(db, u.id);
    assert r.Success?;
    var i :| 0 <= i < |db.users| && db.users[i] == r.value;
  }

  /** A row appended under a name no earlier row has is what the username lookup then finds. */
  lemma UserByUsernameAppended(db: Db, u: User)
    requires db.up && forall v :: v in db.users ==> v.username != u.username
    ensures UserByUsername(db.(users := db.users + [u]), u.username) == Success(u)
  {
    var db' := db.(users := db.users + [u]);
    assert db'.users[|db.users|] == u;
    assert forall j :: 0 <= j < |db.users| ==> db'.users[j] in db.users;
  }

  /** A row appended under an id no earlier row has is what the id lookup then finds. */
  lemma UserByIdAppended(db: Db, u: User)
    requires db.up && forall v :: v in db.users ==> v.id != u.id
    ensures UserById(db.(users := db.users + [u]), u.id) == Success(u)
  {
    var db' := db.(users := db.users + [u]);
    assert db'.users[|db.users|] == u;
    assert forall j :: 0 <= j < |db.users| ==> db'.users[j] in db.users;
  }
}

=== FILE: tokens.dfy ===
/**
 * Token claims and issuance (lib/security/jwt-generator.go), following the
 * registered claims of section 4.1 of RFC 7519 and HS256 from section 3.2 of
 * RFC 7518. The JWT library is foreign code: it enters as `JwtLibrary`, and
 * the only facts assumed of it are stated by `Sound`.
 */
module Tokens {
  import opened Wrappers
  import Constants

  /** Values of the JOSE `alg` header the library knows. */
  datatype Alg = HS256 | HS384 | HS512 | RS256 | RS384 | RS512 | ES256 | ES384 | ES512 | PS256 | EdDSA | NoneAlg

  /** The algorithms implemented by the library's HMAC signing method. */
  predicate IsHmac(alg: Alg) {
    alg.HS256? || alg.HS384? || alg.HS512?
  }

  /** `JWTClaims`: `uid`, `sid` and the registered `iat`, `nbf`, `exp` (seconds), each of which may be absent. */
  datatype Claims = Claims(
    uid: string,
    sid: string,
    issuedAt: Option<int>,
    notBefore: Option<int>,
    expiresAt: Option<int>)

  /** The claims value a parse yields: of the expected type, a nil pointer, or some other type. */
  datatype Payload = Typed(claims: Claims) | NilClaims | WrongType

  /** The decoded header algorithm and claims of a compact token. */
  datatype Jws = Jws(alg: Alg, payload: Payload)

  /**
   * The JWT library: signing a header+claims under a secret, decoding a token
   * without checking it, checking its signature under a key, and the
   * library's own claims validation (left abstract: the model does not
   * decide whether the library rejects expired tokens).
   */
  datatype JwtLibrary = JwtLibrary(
    sign: (Jws, string) -> Option<string>,
    decode: string -> Option<Jws>,
    verifies: (string, string) -> bool,
    validates: string -> bool)

  /**
   * A signed token is a non-empty compact string that decodes to what was
   * signed and verifies under the signing secret.
   */
  ghost predicate Sound(lib: JwtLibrary) {
    forall jws, secret :: lib.sign(jws, secret).Some? ==>
      && lib.sign(jws, secret).value != ""
      && lib.decode(lib.sign(jws, secret).value) == Some(jws)
      && lib.verifies(lib.sign(jws, secret).value, secret)
  }

  datatype JwtError =
    | SecretMissing   // `log.Fatal`: the process terminates
    | SigningFailed

  /** The claims issued at clock reading `now` for a token living `duration` seconds. */
  function IssuedClaims(uid: string, sid: string, duration: int, now: int): (c: Claims)
    ensures c.uid == uid && c.sid == sid
    ensures c.issuedAt.Some? && c.notBefore.Some? && c.expiresAt.Some?
    ensures c.issuedAt == c.notBefore == Some(now)
    ensures c.expiresAt.value - c.issuedAt.value == duration
  {
    Claims(uid, sid, Some(now), Some(now), Some(now + duration))
  }

  /**
   * `GenerateJWTWithDuration(uid, sid, duration)` with JWT_SECRET = `secret`
   * and one clock reading `now`.
   */
  function GenerateJwtWithDuration(lib: JwtLibrary, secret: string, uid: string, sid: string,
                                   duration: int, now: int): (r: Result<string, JwtError>)
    ensures secret == "" ==> r == Failure(SecretMissing)
    ensures secret != "" ==> (r.Success? <==> lib.sign(Jws(HS256, Typed(IssuedClaims(uid, sid, duration, now))), secret).Some?)
    ensures r.Failure? && secret != "" ==> r.error == SigningFailed
    ensures Sound(lib) && r.Success? ==>
              && r.value != ""
              && lib.decode(r.value) == Some(Jws(HS256, Typed(IssuedClaims(uid, sid, duration, now))))
              && lib.verifies(r.value, secret)
  {
    if secret == "" then Failure(SecretMissing)
    else
      match lib.sign(Jws(HS256, Typed(IssuedClaims(uid, sid, duration, now))), secret)
      case None => Failure(SigningFailed)
      case Some(token) => Success(token)
  }

  /** `GenerateJWT(uid, sid)`: a 5-minute token. */
  function GenerateJwt(lib: JwtLibrary, secret: string, uid: string, sid: string, now: int): (r: Result<string, JwtError>)
    ensures r == GenerateJwtWithDuration(lib, secret, uid, sid, Constants.JwtDuration, now)
    ensures Sound(lib) && r.Success? ==>
              && lib.decode(r.value).Some?
              && lib.decode(r.value).value.alg == HS256
              && lib.decode(r.value).value.payload.Typed?
              && lib.decode(r.value).value.payload.claims.expiresAt == Some(now + 300)
  {
    GenerateJwtWithDuration(lib, secret, uid, sid, Constants.JwtDuration, now)
  }

  /** Issued tokens carry an HMAC algorithm. */
  lemma IssuedAlgIsHmac(lib: JwtLibrary, secret: string, uid: string, sid: string, duration: int, now: int)
    requires Sound(lib)
    requires GenerateJwtWithDuration(lib, secret, uid, sid, duration, now).Success?
    ensures IsHmac(lib.decode(GenerateJwtWithDuration(lib, secret, uid, sid, duration, now).value).value.alg)
  {
  }
}

=== FILE: wrappers.dfy ===
/** Failure-carrying results shared by every module of the model. */
module Wrappers {

  datatype Option<+T> = None | Some(value: T) {
    function GetOr(default: T): T {
      match this
      case Some(v) => v
      case None => default
    }
  }

  /** The Go convention `(value, err)`: exactly one of the two is meaningful. */
  datatype Result<+T, +E> = Success(value: T) | Failure(error: E) {
    function ToOption(): Option<T> {
      match this
      case Success(v) => Some(v)
      case Failure(_) => None
    }
  }
}
